=== FILE: README.md ===
# pwabuild core in Dafny

pwabuild wraps a web site into a Progressive Web App. `generate-pwa.js`
writes a four-file project under `build/<slug>`:

- a shell page that shows the site in an iframe and registers an offline worker;
- a web app manifest;
- the worker script;
- a 512x512 icon.

`server.js` exposes the generator over HTTP (`POST /generate-pwa`). It also
offers a helper, `GET /get-title`, that proposes a title and candidate icons
for a URL. The offline worker (`build/winbd/service-worker.js`, and the
template generate-pwa.js writes) precaches the app shell on install. It
deletes old caches on activate. On fetch it serves static assets cache-first
and everything else network-first. As written, the generated worker
classifies nothing as static; see "## Findings".

This project models these four parts as pure functions over immutable data.

- **Parameters.** Everything that touches the outside world is a parameter:
  - the network's answer to a request;
  - the page fetch;
  - URL parsing and resolution;
  - the file system's contents;
  - the download;
  - base64 decoding;
  - the image library's resize;
  - whether the child process succeeded.
- **Cache Storage** is an ordered list of named caches in creation order. That
  is the order in which `caches.match` searches them. Each cache maps request
  URLs to responses.

The modules:

- `options.dfy`: `Option` and `Result`.
- `strings.dfy`: the JavaScript string operations the code uses: `startsWith`,
  `endsWith`, `includes`, `indexOf`, `lastIndexOf`, `split(c)[1]`, `trim` with
  the ECMAScript whitespace set, `toLowerCase` and `replace` with a string
  pattern.
- `distinct.dfy`: `[...new Set(xs)]`.
- `project.dfy`: the slug `name.toLowerCase().replace(/\s+/g, '-')`, the project
  directory and the four output paths. The generator and the server share
  these.
- `cache_storage.dfy`: `caches.open`, `cache.addAll`, `cache.put`,
  `caches.match` and `caches.delete`. As in the Cache API:
  - only GET requests match or can be stored;
  - `put` refuses a partial (206) response; `addAll` refuses that and any
    response that is not ok. The worker tests `ok` itself before each `put`,
    so everything it stores is ok and not partial;
  - `addAll` stores all its entries or none.
- `service_worker.dfy`: install, activate and fetch. The worker's constants are
  parameters, so one model covers both the shipped worker (`/`-relative
  references) and the generated one (`./`-relative references).
- `generator.dfy`:
  - the manifest;
  - the registration path the shell page computes;
  - the icon-source classification;
  - `processIcon`;
  - a whole run of the script.
- `title_endpoint.dfy`: `GET /get-title`. The parsed page is a list of elements
  (tag, attributes, text) in document order.
- `generate_endpoint.dfy`: `POST /generate-pwa`.

Where one might expect otherwise, the model follows the code:

- **Failed page fetch.** `/get-title` answers `PWA App` and the default icon
  alone. It does not fall back to the host name.
- **Host name.** The first `www.` is removed wherever it occurs in the host
  name, not only at its start.
- **Icon list.** It is the hard-coded default followed by the resolved `src`
  of every `<img>` whose class contains `icon`, in document order. There is no
  ranking over alt texts, `<link>` tags or `/favicon.ico`, and data URIs are
  not filtered out.
- **`split(',')[1]`.** This is the text between the first and the second comma,
  not all text after the first comma. Without a comma it is `undefined`:
  - in the generator, the decoding throws and the icon becomes the placeholder;
  - in the server, the request fails with 500.

## Model

Some functions carry no row of their own: `Project.Slug`,
`ServiceWorker.IsStatic`, `Generator.IsIco`, `TitleEndpoint.TitleChain`,
`TitleEndpoint.PageTitle` and `TitleEndpoint.CollectIcons` only compute. The
rows of the lemmas about them (`SlugIdempotent`, `BuiltStaticPaths`,
`IsIcoByKind`, `PageTitleIsFirstNonEmpty`, `CollectIconsMembers` and others)
state their properties.

| member | source | states |
|---|---|---|
| Project.ProjectDir | generate-pwa.js:21 | the project directory is `build/` followed by the slug of the name |
| Project.OutputFiles | server.js:201-213 | the four reported files are distinct and all lie inside the project directory |
| Project.SlugHasNoWhitespace | generate-pwa.js:21 | a slug never contains whitespace |
| Project.SlugIdempotent | generate-pwa.js:21 | slugging a slug changes nothing |
| Project.SlugOfWord | generate-pwa.js:21 | a name without whitespace is only lower-cased |
| Project.SlugJoinsAtRun | generate-pwa.js:21 | a whitespace run between two words becomes exactly one `-` joining the two slugs |
| Project.HyphenateConcat | generate-pwa.js:21 | the `\s+` replacement is a left-to-right scan: a concatenation is replaced piecewise, carrying whether a run is open |
| Project.HyphenateRun | generate-pwa.js:21 | a non-empty run of whitespace yields a single `-` |
| Project.HyphenateFixesWordChars | generate-pwa.js:21 | text without whitespace passes through the replacement unchanged |
| Strings.Trim | server.js:66 | `trim()` is empty exactly for all-whitespace text, and otherwise neither starts nor ends with whitespace |
| Strings.TrimSurrounded | server.js:66 | trimming removes exactly the leading and trailing whitespace around a core |
| Strings.SecondField | generate-pwa.js:246 | `split(',')[1]` is absent exactly when there is no comma; otherwise it is the text after the first comma up to the next comma or the end |
| Strings.IndexOf | server.js:81 | `indexOf` is -1 exactly when the pattern does not occur, and otherwise is the first occurrence |
| Strings.ReplaceFirst | server.js:81 | `replace` with a string pattern replaces the first occurrence only, wherever it is |
| Strings.LastIndexOfChar | generate-pwa.js:82 | `lastIndexOf('/')` is the last position holding `/`, or -1 |
| Distinct.Unique | server.js:114 | the deduplicated list has no repeats, the same elements as the input, the same head, and lists elements in order of first occurrence |
| CacheStorage.Open | build/winbd/service-worker.js:16 | opening creates an empty cache only when the name is new, after the existing ones, and leaves every existing cache in its place with its contents |
| CacheStorage.PutAll | build/winbd/service-worker.js:16-18 | storing a batch merges it into the named cache (creating it if needed, after the existing ones) and leaves every other cache unchanged and every cache in its place, so the search order of `caches.match` is kept |
| CacheStorage.Put | build/winbd/service-worker.js:56-58 | `cache.put` sets one entry of the named cache (creating it if needed, after the existing ones) and leaves every other cache unchanged and every cache in its place |
| CacheStorage.PlacesPinned | build/winbd/service-worker.js:16-18 | an update that keeps every cache in its place, keeps names unique and leaves every other cache's contents alone adds a cache exactly when the name was new, and leaves every cache of another name as it was, at its place |
| CacheStorage.Match | build/winbd/service-worker.js:51 | `caches.match` answers from the first cache, in creation order, that holds the key, and misses exactly when no cache holds it |
| CacheStorage.MatchRequest | build/winbd/service-worker.js:77 | a request that is not a GET never matches |
| CacheStorage.Retain | build/winbd/service-worker.js:28-36 | after deleting the other caches only caches with the given name remain, its contents unchanged, at most one of them |
| CacheStorage.MatchAfterPut | build/winbd/service-worker.js:51-58 | after storing an entry for a key no cache held, `caches.match` returns exactly that entry |
| ServiceWorker.CacheName | build/winbd/service-worker.js:3 | the cache name is `pwa-cache-` followed by the version |
| ServiceWorker.BuiltConstants | build/winbd/service-worker.js:2-11 | the cache is `pwa-cache-v1` and there are four static assets; the generated worker uses the same cache name |
| ServiceWorker.Install | build/winbd/service-worker.js:14-20 | install succeeds exactly when every asset is delivered ok; then `CACHE_NAME` holds every asset's response, keeps its other entries and gains no key but the assets'; on failure it holds what it held before; other caches are unchanged and every cache keeps its place |
| ServiceWorker.AddAll | build/winbd/service-worker.js:16-18 | `caches.open` then `cache.addAll` over any URL list: all responses stored, or none when one is not delivered, with nothing else added and every cache kept in its place |
| ServiceWorker.Activate | build/winbd/service-worker.js:26-38 | after activation every remaining cache is `CACHE_NAME`, whose contents are unchanged |
| ServiceWorker.ActivateIdempotent | build/winbd/service-worker.js:26-38 | activating twice is the same as activating once |
| ServiceWorker.CacheFirst | build/winbd/service-worker.js:51-67 | a hit is served with no network call and no change; on a miss the network answer is served and stored in `CACHE_NAME` if ok, a GET and not 206; an ok answer that `put` refuses leaves only the effect of `caches.open`; storage is untouched if not ok; on network failure the cached icon or shell page is served; every cache keeps its place |
| ServiceWorker.NetworkFirst | build/winbd/service-worker.js:72-80 | the network answer is served verbatim with storage untouched; on failure the request's cached entry, else the cached shell page |
| ServiceWorker.Fetch | build/winbd/service-worker.js:44-83 | static requests are handled exactly as cache-first (icon fallback for icon paths) and all others exactly as network-first, with storage untouched; a hit is served from the cache, a non-static request reaching the network gets the network's response |
| ServiceWorker.BuiltStaticPaths | build/winbd/service-worker.js:49 | a request is static exactly when its pathname is `/`, `/index.html`, `/manifest.json` or lies under `/icons/` |
| ServiceWorker.CacheFirstLearns | build/winbd/service-worker.js:51-60 | a static miss answered by a storable response is, the next time, served from the cache without the network |
| ServiceWorker.InstallPrimes | build/winbd/service-worker.js:6-20 | a successful install caches both fallbacks, the shell page and the icon |
| ServiceWorker.ShippedWorkersPrime | build/winbd/service-worker.js:6-20 | for both shipped workers, the root-relative one and the `./`-relative one, a successful install leaves the shell page and the icon cached |
| ServiceWorker.ActivateKeepsPrimed | build/winbd/service-worker.js:26-38 | activation keeps the fallbacks cached |
| ServiceWorker.StrategiesKeepPrimed | build/winbd/service-worker.js:51-80 | with the fallbacks cached, both strategies always answer and keep the fallbacks cached |
| ServiceWorker.FetchNeverLeavesPageEmpty | build/winbd/service-worker.js:44-83 | once the fallbacks are cached, every request gets a response whatever the network does, and they stay cached |
| ServiceWorker.InstalledAssetFromCache | build/winbd/service-worker.js:14-52 | after install and activate, a GET for an installed asset that is classified static is served from the cache with what install stored, without the network |
| ServiceWorker.BuiltServesInstalledAssets | build/winbd/service-worker.js:6-52 | the shipped worker serves every installed asset from the cache after install and activate |
| ServiceWorker.BuiltResolvedAgrees | build/winbd/service-worker.js:49 | for the shipped worker the written static test and the resolved one agree, and so do the two fetch handlers |
| ServiceWorker.TemplateRoutesEverythingToNetwork | generate-pwa.js:130-173 | in the generated worker no request pathname is static, so every request goes to the network first and nothing is stored |
| ServiceWorker.FetchResolved | generate-pwa.js:168-206 | with the resolved static test, static hits are served from the cache and other requests leave storage untouched |
| ServiceWorker.ResolvedTemplateServesInstalledAssets | generate-pwa.js:130-173 | with the resolved static test the generated worker serves every installed asset from the cache after install and activate |
| Generator.ShortName | generate-pwa.js:105 | a short name is the name itself up to 12 characters, otherwise its first 12 characters and `...` (15 in all) |
| Generator.ShortNameIdempotent | generate-pwa.js:105 | shortening a short name again changes nothing |
| Generator.ShortNameFixedPoints | generate-pwa.js:105 | the names kept unchanged are exactly those of at most 12 characters and those of 15 ending in `...` |
| Generator.DescriptionInjective | generate-pwa.js:106 | the description determines the name |
| Generator.BuildManifest | generate-pwa.js:103-120 | the manifest carries the name, its short name, `PWA wrapper for ` and the name, start URL `/`, standalone display, one 512x512 icon |
| Generator.RegistrationPath | generate-pwa.js:82 | the registration path ends with `service-worker.js` after the page's directory: a prefix of the page path, empty or ending in `/`, with no `/` after it |
| Generator.DirUnique | generate-pwa.js:82 | the prefix up to the last `/` is the unique prefix ending in `/` with no `/` after it |
| Generator.RegistrationBranchesAgree | generate-pwa.js:82 | for a path ending in `/` the shortcut branch gives what the general branch would |
| Generator.RegistrationPathIdempotent | generate-pwa.js:82 | computing the registration path from the worker's own path gives it back |
| Generator.ClassifyIcon | generate-pwa.js:236-258 | an icon source is remote, else a data URI whose payload is the second comma-separated field (absent exactly without a comma), else an existing local path, else unresolvable, in that order |
| Generator.IsIcoByKind | generate-pwa.js:261-263 | for a URL the `.ico` test is containment, for anything else it is the extension |
| Generator.ProcessIcon | generate-pwa.js:232-309 | every path ends with exactly one write, to the output path, of the resized image when the source yields bytes and the resize succeeds, else the placeholder; an unresolvable source writes only the placeholder |
| Generator.ResizeOnlyWithBytes | generate-pwa.js:236-300 | the resize is attempted exactly when the source yielded bytes |
| Generator.IconArg | generate-pwa.js:10 | a given non-empty icon argument is used as is; a missing or empty one becomes `default` |
| Generator.Generate | generate-pwa.js:7-320 | missing url or name is a usage error; otherwise the four files at the project's paths hold the shell page, the manifest, the worker and the processed icon |
| Generator.GeneratedWorkerIsTemplate | generate-pwa.js:125-135 | the worker script written out is the `./`-relative worker |
| Generator.LinksResolveToWrittenFiles | generate-pwa.js:38-135 | the page's manifest and icon links, the manifest's icon and the registered worker all resolve to files the project writes; so do the written worker's references: its shell fallback is `index.html`, the first reported file, its icon fallback is the icon, and every asset it precaches except `./` is a reported file |
| TitleEndpoint.FirstAttr | server.js:73 | `attr` reads the first matching element only: empty without a match, otherwise exactly that element's attribute (empty when it lacks one) |
| TitleEndpoint.HostTitle | server.js:78-86 | the host title is the host with its first `www.` cut out at the first index where it occurs, the host unchanged when it holds none, or empty when the URL does not parse |
| TitleEndpoint.FirstNonEmpty | server.js:66-90 | the first non-empty candidate, or the fallback when all are empty |
| TitleEndpoint.PageTitleIsFirstNonEmpty | server.js:66-90 | the title is the first non-empty of trimmed `<title>`, meta title, `og:title`, host title, else `PWA App` |
| TitleEndpoint.TitleChainIsFirstNonEmpty | server.js:71-90 | the step-by-step fallbacks pick the first non-empty candidate |
| TitleEndpoint.TitleTagWins | server.js:66-72 | a page with a non-blank `<title>` is named by its trimmed text |
| TitleEndpoint.AllText | server.js:66 | `$('title').text()` is empty without a `<title>`, and a single element contributes its text exactly when it is a `<title>` |
| TitleEndpoint.AllTextConcat | server.js:66 | `$('title').text()` joins the titles of a split page in document order |
| TitleEndpoint.CollectIconsMembers | server.js:94-106 | an icon is collected exactly when some `<img>` with a `src` and an `icon` class resolves to it |
| TitleEndpoint.CollectIconsConcat | server.js:94-106 | icons are collected in document order |
| TitleEndpoint.OtherElementsIgnored | server.js:98 | elements other than icon images contribute nothing |
| TitleEndpoint.GetTitle | server.js:33-135 | the status is 400 exactly when the url is missing or empty; otherwise the title is non-empty and the icons start with the default, without repeats; a failed fetch gives `PWA App` and the default icon alone |
| TitleEndpoint.IconsInDiscoveryOrder | server.js:113-114 | the icons are listed in the order they were first found |
| GenerateEndpoint.SelectIcon | server.js:161-186 | an upload wins; else a non-empty `icon` field, a data URI being swapped for a temp file holding its decoded payload (an error without a comma); else `default` |
| GenerateEndpoint.GeneratePwa | server.js:138-219 | the status is 400 exactly when url or name is missing, and nothing runs then; otherwise the script runs exactly when icon selection succeeds, with the selected icon argument, temp write and cleanup, and a failed selection is a 500; success reports the slug directory and the four files; a temp file written is always removed |
| GenerateEndpoint.ReportMatchesScript | server.js:189-213 | the reported directory and files are the ones the script writes for the arguments it was given |
| GenerateEndpoint.DataUriViaTempFileSameIcon | server.js:174-181 | routing a data URI through the temp file produces the icon the data URI itself would |
| GenerateEndpoint.UploadWins | server.js:164-168 | with an upload, the `icon` field has no effect and the upload's path is the icon argument |

## Left out

- Express routing, multer's storage and size limit, `execSync` and the shell quoting of its arguments: the script's success is a boolean and its arguments a list.
- The network, axios, cheerio's HTML parsing, `new URL` parsing and resolution: their outcomes are parameters. The page is a list of elements, and attribute names are compared as given.
- sharp's cover-fit resize and base64 decoding of pixel data: these are opaque functions. The placeholder is a constant.
- File-system writes, directory creation, `fs.existsSync` races, `path.join` normalisation of a slug containing `/` or `..`, and temp-file collisions between concurrent requests. Only the paths and contents written are modelled.
- The literal HTML and CSS text of the shell page, the JSON text of the manifest, and the text of the worker script: only the fields that depend on the inputs or link files together are modelled.
- Strings.ToLower: lower-cases ASCII letters only, where `toLowerCase` maps all of Unicode.
- Generator.ShortName: counts characters as code points, where `name.length` counts UTF-16 units. A name of seven emoji is 14 units, so JavaScript shortens it while the model keeps it whole.
- `self.skipWaiting()`, `clients.claim()`, promise scheduling and concurrent fetch events. The un-awaited `cache.put` is taken to have completed before the next event.
- Cache API details outside this worker's use: `put` refusing a `Vary: *` response, opaque responses, and `addAll` rejecting duplicate requests.
- The outer `catch` of `/get-title`: every step that could throw is already handled inside it, and it returns the same answer as a failed fetch.
- Body fields of `/generate-pwa` that are not strings (a number or an array would make the string methods throw).
- The commented-out sync and push handlers, the browser UI script and the icon smoke test.

## Findings

| source | as written | input that shows it | evidently intended | confidence | as-written member | corrected member |
|---|---|---|---|---|---|---|
| generate-pwa.js:130-173 | the generated worker compares `url.pathname` with the `./`-prefixed references and the `./icons/` prefix | after a successful install, a GET for `/myapp/index.html` (any pathname, since pathnames always begin with `/`): it is routed network-first, so it never comes from the precache while the network answers | compare the pathname with the references resolved against the worker's directory, the way `cache.addAll` and `caches.match` resolve them, so the installed assets are served cache-first as in the shipped worker | not executed | ServiceWorker.TemplateRoutesEverythingToNetwork | ServiceWorker.ResolvedTemplateServesInstalledAssets |

=== FILE: cache_storage.dfy ===
/** The browser's Cache Storage as the offline worker uses it: an ordered list
    of named caches (in creation order, which is the order `caches.keys()`
    reports and `caches.match` searches), each a map from request URL to a
    stored response. */
module CacheStorage {
  import opened Options

  /** A request URL, split the way the worker looks at it. */
  datatype Url = Url(origin: string, pathname: string, search: string)

  datatype Request = Request(verb: string, url: Url)

  datatype Response = Response(status: int, body: string) {
    /** `response.ok`: a status in 200..299. */
    predicate Ok() {
      200 <= status <= 299
    }

    /** What this worker can store: `cache.put` refuses a partial (206)
        response, and `cache.addAll` refuses that and any response that is
        not ok. The worker only calls `cache.put` after testing `ok` itself,
        so both of its stores require an ok, non-206 response. */
    predicate Storable() {
      Ok() && status != 206
    }
  }

  type Entries = map<Url, Response>

  datatype NamedCache = NamedCache(name: string, entries: Entries)

  type Storage = seq<NamedCache>

  /** `caches.open` never creates a second cache under an existing name. */
  predicate UniqueNames(st: Storage) {
    forall i, j :: 0 <= i < j < |st| ==> st[i].name != st[j].name
  }

  /** `r` keeps every cache of `st` at its place and under its name, and adds
      at most one cache after them. Since `caches.match` searches in this
      order, an operation that keeps places cannot reorder its answers. */
  predicate KeepsPlaces(st: Storage, r: Storage) {
    |st| <= |r| <= |st| + 1 && forall i :: 0 <= i < |st| ==> r[i].name == st[i].name
  }

  predicate HasCache(st: Storage, name: string) {
    exists i :: 0 <= i < |st| && st[i].name == name
  }

  /** The contents of the cache called `name`, if there is one. */
  function Lookup(st: Storage, name: string): (r: Option<Entries>)
    ensures r.None? <==> !HasCache(st, name)
    ensures r.Some? ==> exists i :: 0 <= i < |st| && st[i].name == name && st[i].entries == r.value
  {
    if |st| == 0 then None
    else if st[0].name == name then Some(st[0].entries)
    else
      assert forall i :: 1 <= i < |st| ==> st[i] == st[1..][i - 1];
      Lookup(st[1..], name)
  }

  lemma {:induction false} LookupUnique(st: Storage, name: string, i: int)
    requires UniqueNames(st) && 0 <= i < |st| && st[i].name == name
    ensures Lookup(st, name) == Some(st[i].entries)
  {
    if i > 0 {
      assert st[0].name != name;
      LookupUnique(st[1..], name, i - 1);
    }
  }

  /** `caches.open(name)`: an existing cache is left as it is; a missing one
      is created empty, after all existing caches. */
  function Open(st: Storage, name: string): (r: Storage)
    ensures |r| >= |st| && r[..|st|] == st
    ensures |r| == (if HasCache(st, name) then |st| else |st| + 1)
    ensures forall i :: 0 <= i < |st| ==> r[i] == st[i]
    ensures Lookup(r, name) == Some(Lookup(st, name).GetOr(map[]))
    ensures forall other {:trigger Lookup(r, other)} :: other != name ==> Lookup(r, other) == Lookup(st, other)
    ensures UniqueNames(st) ==> UniqueNames(r)
  {
    if HasCache(st, name) then st
    else
      var r := st + [NamedCache(name, map[])];
      forall n ensures Lookup(r, n) == (if n == name then Some(map[]) else Lookup(st, n)) {
        LookupAppend(st, NamedCache(name, map[]), n);
      }
      r
  }

  lemma {:induction false} LookupAppend(st: Storage, c: NamedCache, name: string)
    ensures Lookup(st + [c], name) ==
            (if HasCache(st, name) then Lookup(st, name) else if c.name == name then Some(c.entries) else None)
  {
    if |st| > 0 {
      assert (st + [c])[1..] == st[1..] + [c];
      if st[0].name != name {
        LookupAppend(st[1..], c, name);
        assert HasCache(st, name) <==> HasCache(st[1..], name) by {
          forall i | 1 <= i < |st| ensures st[i] == st[1..][i - 1] { }
        }
      }
    }
  }

  /** Merges `batch` into every cache called `name`, leaving the rest of the
      storage alone; entries of `batch` replace entries under the same key. */
  function MergeInto(st: Storage, name: string, batch: Entries): (r: Storage)
    ensures |r| == |st|
    ensures forall i :: 0 <= i < |st| ==> r[i].name == st[i].name
    ensures forall i :: 0 <= i < |st| && st[i].name != name ==> r[i] == st[i]
    ensures forall i :: 0 <= i < |st| && st[i].name == name ==> r[i].entries == st[i].entries + batch
  {
    if |st| == 0 then []
    else
      var c := st[0];
      var head := if c.name == name then NamedCache(name, c.entries + batch) else c;
      [head] + MergeInto(st[1..], name, batch)
  }

  /** `caches.open(name).then(cache => ...)` storing every entry of `batch`
      in one step, as `cache.addAll` does once all its responses arrived. */
  function PutAll(st: Storage, name: string, batch: Entries): (r: Storage)
    requires UniqueNames(st)
    ensures UniqueNames(r)
    ensures KeepsPlaces(st, r)
    ensures Lookup(r, name) == Some(Lookup(st, name).GetOr(map[]) + batch)
    ensures forall other {:trigger Lookup(r, other)} :: other != name ==> Lookup(r, other) == Lookup(st, other)
  {
    var o := Open(st, name);
    var r := MergeInto(o, name, batch);
    MergedOpen(st, o, r, name, batch);
    r
  }

  lemma MergedOpen(st: Storage, o: Storage, r: Storage, name: string, batch: Entries)
    requires UniqueNames(st) && o == Open(st, name) && r == MergeInto(o, name, batch)
    ensures UniqueNames(r)
    ensures Lookup(r, name) == Some(Lookup(st, name).GetOr(map[]) + batch)
    ensures forall other {:trigger Lookup(r, other)} :: other != name ==> Lookup(r, other) == Lookup(st, other)
  {
    assert UniqueNames(r) by {
      forall i, j | 0 <= i < j < |r| ensures r[i].name != r[j].name {
        assert r[i].name == o[i].name && r[j].name == o[j].name;
      }
    }
    var k :| 0 <= k < |o| && o[k].name == name && o[k].entries == Lookup(o, name).value;
    LookupUnique(r, name, k);
    forall other | other != name ensures Lookup(r, other) == Lookup(st, other) {
      SameOutsideName(o, r, name, other);
    }
  }

  /** `caches.open(name).then(cache => cache.put(key, resp))`. */
  function Put(st: Storage, name: string, key: Url, resp: Response): (r: Storage)
    requires UniqueNames(st)
    ensures KeepsPlaces(st, r)
    ensures UniqueNames(r)
    ensures Lookup(r, name) == Some(Lookup(st, name).GetOr(map[])[key := resp])
    ensures forall other {:trigger Lookup(r, other)} :: other != name ==> Lookup(r, other) == Lookup(st, other)
  {
    SingleMerge(Lookup(st, name).GetOr(map[]), key, resp);
    PutAll(st, name, map[key := resp])
  }

  /** Merging a one-entry batch is a single update. */
  lemma SingleMerge(before: Entries, key: Url, resp: Response)
    ensures before + map[key := resp] == before[key := resp]
  {
  }

  lemma {:induction false} SameOutsideName(a: Storage, b: Storage, name: string, other: string)
    requires |a| == |b| && other != name
    requires forall i :: 0 <= i < |a| ==> a[i].name == b[i].name
    requires forall i :: 0 <= i < |a| && a[i].name != name ==> a[i] == b[i]
    ensures Lookup(a, other) == Lookup(b, other)
  {
    if |a| > 0 && a[0].name != other {
      SameOutsideName(a[1..], b[1..], name, other);
    }
  }

  /** Keeping places, unique names and every other cache's contents pin an
      update down: it adds a cache exactly when the name was new, and every
      cache of another name stays as it was, at its place. */
  lemma PlacesPinned(st: Storage, r: Storage, name: string)
    requires UniqueNames(st) && UniqueNames(r) && KeepsPlaces(st, r)
    requires Lookup(r, name).Some?
    requires forall other {:trigger Lookup(r, other)} :: other != name ==> Lookup(r, other) == Lookup(st, other)
    ensures |r| == |st| <==> HasCache(st, name)
    ensures forall i :: 0 <= i < |st| && st[i].name != name ==> r[i] == st[i]
  {
    forall i | 0 <= i < |st| && st[i].name != name ensures r[i] == st[i] {
      PlaceFramed(st, r, name, i);
    }
    if |r| == |st| + 1 {
      AppendedCacheIsNew(st, r, name);
    } else {
      var k :| 0 <= k < |r| && r[k].name == name;
      assert st[k].name == name;
    }
  }

  lemma PlaceFramed(st: Storage, r: Storage, name: string, i: int)
    requires UniqueNames(st) && UniqueNames(r) && KeepsPlaces(st, r)
    requires forall other {:trigger Lookup(r, other)} :: other != name ==> Lookup(r, other) == Lookup(st, other)
    requires 0 <= i < |st| && st[i].name != name
    ensures r[i] == st[i]
  {
    var n := st[i].name;
    LookupUnique(st, n, i);
    LookupUnique(r, n, i);
    assert Lookup(r, n) == Lookup(st, n);
  }

  /** A cache appended after the existing ones carries a name that was not
      there before; with every other name framed, that name is `name`. */
  lemma AppendedCacheIsNew(st: Storage, r: Storage, name: string)
    requires UniqueNames(r) && KeepsPlaces(st, r) && |r| == |st| + 1
    requires forall other {:trigger Lookup(r, other)} :: other != name ==> Lookup(r, other) == Lookup(st, other)
    ensures r[|st|].name == name
    ensures !HasCache(st, name)
  {
    var n := r[|st|].name;
    LookupUnique(r, n, |st|);
    forall j | 0 <= j < |st| ensures st[j].name != n {
      assert r[j].name == st[j].name;
    }
  }

  /** `caches.match(url)` for a GET: the entry of the first cache, in creation
      order, that holds `key`. */
  function Match(st: Storage, key: Url): (r: Option<Response>)
    ensures r.None? <==> forall i :: 0 <= i < |st| ==> key !in st[i].entries
    ensures r.Some? ==> exists i :: 0 <= i < |st| && key in st[i].entries && r.value == st[i].entries[key]
                          && (forall j :: 0 <= j < i ==> key !in st[j].entries)
  {
    if |st| == 0 then None
    else if key in st[0].entries then Some(st[0].entries[key])
    else
      assert forall i :: 1 <= i < |st| ==> st[i] == st[1..][i - 1];
      Match(st[1..], key)
  }

  /** `caches.match(request)`: a request that is not a GET never matches. */
  function MatchRequest(st: Storage, req: Request): (r: Option<Response>)
    ensures req.verb != "GET" ==> r.None?
    ensures req.verb == "GET" ==> r == Match(st, req.url)
  {
    if req.verb == "GET" then Match(st, req.url) else None
  }

  /** The caches called `name` only (what remains after `caches.delete` of
      every other name). */
  function Retain(st: Storage, name: string): (r: Storage)
    ensures forall i :: 0 <= i < |r| ==> r[i].name == name
    ensures Lookup(r, name) == Lookup(st, name)
    ensures forall c :: c in r ==> c in st
    ensures UniqueNames(st) ==> |r| <= 1
  {
    if |st| == 0 then []
    else if st[0].name == name then
      var rest := Retain(st[1..], name);
      [st[0]] + rest
    else
      Retain(st[1..], name)
  }

  /** Whatever cache holds `key`, `caches.match` finds some entry for it. */
  lemma MatchFindsCached(st: Storage, name: string, key: Url)
    requires Lookup(st, name).Some? && key in Lookup(st, name).value
    ensures Match(st, key).Some?
  {
  }

  /** After storing an entry for a key no cache held, `caches.match` returns
      exactly that entry. */
  lemma MatchAfterPut(st: Storage, name: string, key: Url, resp: Response)
    requires UniqueNames(st) && Match(st, key).None?
    ensures Match(Put(st, name, key, resp), key) == Some(resp)
  {
    var o := Open(st, name);
    MatchOpened(st, o, name, key);
    MatchMerged(o, name, map[key := resp], key);
  }

  lemma MatchOpened(st: Storage, o: Storage, name: string, key: Url)
    requires o == Open(st, name) && Match(st, key).None?
    ensures Match(o, key).None? && HasCache(o, name)
  {
    if !HasCache(st, name) {
      var created := NamedCache(name, map[]);
      assert o == st + [created];
      forall i | 0 <= i < |o| ensures key !in o[i].entries {
        if i < |st| {
          assert o[i] == st[i];
        } else {
          assert o[i] == created;
        }
      }
      assert o[|st|].name == name;
    }
  }

  lemma {:induction false} MatchMerged(st: Storage, name: string, batch: Entries, key: Url)
    requires Match(st, key).None? && HasCache(st, name) && key in batch
    ensures Match(MergeInto(st, name, batch), key) == Some(batch[key])
  {
    if st[0].name != name {
      assert HasCache(st[1..], name) by {
        var i :| 0 <= i < |st| && st[i].name == name;
        assert st[1..][i - 1] == st[i];
      }
      MatchMerged(st[1..], name, batch, key);
    }
  }
}

=== FILE: distinct.dfy ===
/** Order-preserving deduplication, `[...new Set(xs)]`: a JavaScript `Set`
    iterates in insertion order and ignores re-insertions, so the result keeps
    the first occurrence of every element. */
module Distinct {

  predicate NoDuplicates<T(==)>(xs: seq<T>) {
    forall i, j :: 0 <= i < j < |xs| ==> xs[i] != xs[j]
  }

  /** The position of the first occurrence of `x` in `xs`. */
  function FirstIndex<T(==)>(xs: seq<T>, x: T): (k: nat)
    requires x in xs
    ensures k < |xs| && xs[k] == x
    ensures forall j :: 0 <= j < k ==> xs[j] != x
  {
    if xs[0] == x then 0 else 1 + FirstIndex(xs[1..], x)
  }

  lemma {:induction false} FirstIndexOfPrefix<T>(p: seq<T>, q: seq<T>, x: T)
    requires x in p
    ensures FirstIndex(p + q, x) == FirstIndex(p, x)
  {
    if p[0] != x {
      assert (p + q)[1..] == p[1..] + q;
      FirstIndexOfPrefix(p[1..], q, x);
    }
  }

  /** `[...new Set(xs)]`: no element twice, the same elements as `xs`, and the
      elements ordered by where they first occur in `xs`; in particular the
      head of `xs` stays at the head. */
  function Unique<T(==,!new)>(xs: seq<T>): (r: seq<T>)
    ensures NoDuplicates(r)
    ensures forall x :: x in r <==> x in xs
    ensures |xs| > 0 ==> |r| > 0 && r[0] == xs[0]
    ensures forall i, j :: 0 <= i < j < |r| ==> FirstIndex(xs, r[i]) < FirstIndex(xs, r[j])
  {
    if |xs| == 0 then []
    else
      var init, last := xs[..|xs| - 1], xs[|xs| - 1];
      var u := Unique(init);
      assert xs == init + [last];
      forall i | 0 <= i < |u| ensures FirstIndex(xs, u[i]) == FirstIndex(init, u[i]) {
        FirstIndexOfPrefix(init, [last], u[i]);
      }
      if last in u then
        u
      else
        AppendFirstOccurrence(xs, init, last, u);
        u + [last]
  }

  /** The inductive step of `Unique` when the last element is new: it goes to
      the end, after everything that occurs earlier. */
  lemma AppendFirstOccurrence<T>(xs: seq<T>, init: seq<T>, last: T, u: seq<T>)
    requires xs == init + [last] && last !in init
    requires forall i :: 0 <= i < |u| ==> u[i] in init
    requires forall i :: 0 <= i < |u| ==> FirstIndex(xs, u[i]) == FirstIndex(init, u[i])
    requires forall i, j :: 0 <= i < j < |u| ==> FirstIndex(init, u[i]) < FirstIndex(init, u[j])
    ensures forall i, j :: 0 <= i < j < |u + [last]| ==>
              FirstIndex(xs, (u + [last])[i]) < FirstIndex(xs, (u + [last])[j])
  {
    var r := u + [last];
    assert FirstIndex(xs, last) == |init|;
    forall i, j | 0 <= i < j < |r| ensures FirstIndex(xs, r[i]) < FirstIndex(xs, r[j]) {
      assert r[i] == u[i] && u[i] in init;
      if j < |u| {
        assert r[j] == u[j];
      }
    }
  }
}

=== FILE: generate_endpoint.dfy ===
/** The generation endpoint of server.js (`POST /generate-pwa`): it checks the
    request, picks the icon argument for the generator script, runs the
    script and reports the project directory and the four files. Running the
    script and the temp-file writes are outcomes handed in as parameters. */
module GenerateEndpoint {
  import opened Options
  import opened Strings
  import opened Project
  import opened Generator

  /** A body field as a JavaScript value: absent, or a string. */
  predicate Truthy(field: Option<string>) {
    field.Some? && field.value != []
  }

  /** The request: body fields and, for a multipart request, the stored
      upload's path. */
  datatype GenerateRequest = GenerateRequest(
    url: Option<string>,
    name: Option<string>,
    icon: Option<string>,
    upload: Option<string>)

  /** The icon argument for the script, the temp file written to produce it
      (path and contents), and the file to delete once the script is done. */
  datatype IconChoice = IconChoice(param: string, tempWrite: Option<(string, Bytes)>, cleanup: Option<string>)

  const TempIconName := "/temp-icon.png"

  /** How server.js picks the icon argument. An upload wins; otherwise a
      truthy `icon` field is used, a data URI being decoded into a temp file
      next to the server whose path is passed instead; otherwise `default`.
      A data URI without a comma makes the decoding throw. */
  function SelectIcon(req: GenerateRequest, serverDir: string, decode: string -> Bytes): (r: Result<IconChoice>)
    ensures r.Ok? && req.upload.None? ==> r.value.param != []
    ensures req.upload.Some? ==> r == Ok(IconChoice(req.upload.value, None, Some(req.upload.value)))
    ensures req.upload.None? && !Truthy(req.icon) ==> r == Ok(IconChoice("default", None, None))
    ensures req.upload.None? && Truthy(req.icon) && !StartsWith(req.icon.value, "data:image/") ==>
              r == Ok(IconChoice(req.icon.value, None, None))
    ensures req.upload.None? && Truthy(req.icon) && StartsWith(req.icon.value, "data:image/") ==>
              (r.Err? <==> ',' !in req.icon.value)
              && (r.Ok? ==>
                    var temp := serverDir + TempIconName;
                    && r.value.param == temp
                    && r.value.tempWrite == Some((temp, decode(SecondField(req.icon.value, ',').value)))
                    && r.value.cleanup == Some(temp))
  {
    if req.upload.Some? then
      Ok(IconChoice(req.upload.value, None, Some(req.upload.value)))
    else if Truthy(req.icon) then
      var icon := req.icon.value;
      if StartsWith(icon, "data:image/") then
        match SecondField(icon, ',')
        case None => Err("Failed to generate PWA project")
        case Some(payload) =>
          var temp := serverDir + TempIconName;
          Ok(IconChoice(temp, Some((temp, decode(payload))), Some(temp)))
      else
        Ok(IconChoice(icon, None, None))
    else
      Ok(IconChoice("default", None, None))
  }

  datatype GenerateResponse =
    | MissingParams
    | Failed
    | Success(projectDir: string, files: seq<string>)

  function Status(r: GenerateResponse): int {
    match r
    case MissingParams => 400
    case Failed => 500
    case Success(_, _) => 200
  }

  /** Everything one request does: the response, the arguments the script
      ran with (if it ran), the temp file written and the file deleted. */
  datatype Run = Run(response: GenerateResponse, scriptArgs: Option<seq<string>>,
                     tempWrite: Option<(string, Bytes)>, removed: Option<string>)

  /** `POST /generate-pwa`. `scriptOk` says whether the generator script
      exited successfully. */
  function GeneratePwa(req: GenerateRequest, serverDir: string, decode: string -> Bytes, scriptOk: bool): (run: Run)
    ensures run.response.MissingParams? <==> !Truthy(req.url) || !Truthy(req.name)
    ensures run.response.MissingParams? ==> run.scriptArgs.None? && run.tempWrite.None? && run.removed.None?
    ensures run.response.Success? ==>
              && run.response.projectDir == ProjectDir(req.name.value)
              && run.response.files == OutputFiles(req.name.value)
              && run.scriptArgs.Some?
    ensures run.scriptArgs.Some? ==>
              && Truthy(req.url) && Truthy(req.name)
              && |run.scriptArgs.value| == 3
              && run.scriptArgs.value[..2] == [req.url.value, req.name.value]
    ensures run.scriptArgs.Some? ==> (run.response.Success? <==> scriptOk)
    ensures run.tempWrite.Some? ==> run.removed == Some(run.tempWrite.value.0)
    ensures Status(run.response) == 400 <==> !Truthy(req.url) || !Truthy(req.name)
    ensures Truthy(req.url) && Truthy(req.name) ==>
              var c := SelectIcon(req, serverDir, decode);
              && (run.scriptArgs.Some? <==> c.Ok?)
              && (c.Err? ==> Status(run.response) == 500)
              && (c.Ok? ==>
                    && run.scriptArgs.value[2] == c.value.param
                    && run.tempWrite == c.value.tempWrite
                    && run.removed == c.value.cleanup)
  {
    if !Truthy(req.url) || !Truthy(req.name) then
      Run(MissingParams, None, None, None)
    else
      var url, name := req.url.value, req.name.value;
      match SelectIcon(req, serverDir, decode)
      case Err(_) => Run(Failed, None, None, None)
      case Ok(choice) =>
        var args := [url, name, choice.param];
        var response := if scriptOk then Success(ProjectDir(name), OutputFiles(name)) else Failed;
        Run(response, Some(args), choice.tempWrite, choice.cleanup)
  }

  /** The endpoint and the script agree: when the endpoint reports success,
      the script, run with the arguments it was given, writes exactly the
      directory and the files the response lists, and its icon is the one
      the chosen argument yields. */
  lemma ReportMatchesScript(req: GenerateRequest, serverDir: string, decode: string -> Bytes, env: IconEnv)
    requires GeneratePwa(req, serverDir, decode, true).response.Success?
    ensures var run := GeneratePwa(req, serverDir, decode, true);
            var g := Generate(run.scriptArgs.value, env);
            && g.Generated?
            && g.projectDir == run.response.projectDir
            && (forall i :: 0 <= i < 4 ==> g.files[i].path == run.response.files[i])
            && g.files[3].content == Png(ExpectedImage(IconArg(run.scriptArgs.value), env))
  {
  }

  /** Passing a data URI through a temp file does not change the icon: the
      script reading the temp file produces what it would have produced from
      the data URI itself. */
  lemma DataUriViaTempFileSameIcon(req: GenerateRequest, serverDir: string, env: IconEnv)
    requires req.upload.None? && Truthy(req.icon) && StartsWith(req.icon.value, "data:image/")
    requires SelectIcon(req, serverDir, env.decode).Ok?
    requires var temp := serverDir + TempIconName; !IsRemote(temp) && !StartsWith(temp, "data:image/")
    ensures var choice := SelectIcon(req, serverDir, env.decode).value;
            var written := choice.tempWrite.value;
            var env' := env.(files := env.files[written.0 := File(written.1)]);
            ExpectedImage(choice.param, env') == ExpectedImage(req.icon.value, env)
  {
    var icon := req.icon.value;
    var choice := SelectIcon(req, serverDir, env.decode).value;
    var payload := SecondField(icon, ',').value;
    var temp := serverDir + TempIconName;
    var env' := env.(files := env.files[temp := File(env.decode(payload))]);
    assert choice.param == temp && choice.tempWrite.value == (temp, env.decode(payload));
    assert !IsRemote(icon) by {
      assert icon[0] == 'd';
    }
    assert SourceBytes(icon, env) == Some(env.decode(payload));
    assert ClassifyIcon(temp, env'.files) == LocalFile(temp);
    assert SourceBytes(temp, env') == Some(env.decode(payload));
  }

  /** An upload decides the icon whatever else the request carries. */
  lemma UploadWins(req: GenerateRequest, serverDir: string, decode: string -> Bytes, scriptOk: bool, other: Option<string>)
    requires req.upload.Some? && Truthy(req.url) && Truthy(req.name)
    ensures GeneratePwa(req, serverDir, decode, scriptOk) == GeneratePwa(req.(icon := other), serverDir, decode, scriptOk)
    ensures GeneratePwa(req, serverDir, decode, scriptOk).scriptArgs == Some([req.url.value, req.name.value, req.upload.value])
  {
  }
}

=== FILE: generator.dfy ===
/** The wrapper generator (generate-pwa.js): from a URL, a name and an icon
    source it writes a project of four files — the shell page that frames the
    URL, the manifest, the offline worker and a 512x512 icon. File-system
    calls, the download and the image library are parameters. */
module Generator {
  import opened Options
  import opened Strings
  import opened Project
  import ServiceWorker

  type Bytes = seq<bv8>

  // ---------------------------------------------------------------- manifest

  /** `name.length > 12 ? name.substring(0, 12) + '...' : name`. */
  function ShortName(name: string): (r: string)
    ensures |r| == (if |name| > 12 then 15 else |name|)
    ensures |name| <= 12 ==> r == name
    ensures |name| > 12 ==> StartsWith(r, name[..12]) && EndsWith(r, "...")
  {
    if |name| > 12 then name[..12] + "..." else name
  }

  /** Shortening a short name again changes nothing. */
  lemma ShortNameIdempotent(name: string)
    ensures ShortName(ShortName(name)) == ShortName(name)
  {
    if |name| > 12 {
      var r := ShortName(name);
      assert r[..12] == name[..12];
    }
  }

  /** The names the manifest keeps as they are: those of at most 12
      characters, and those that already look shortened. */
  lemma ShortNameFixedPoints(name: string)
    ensures ShortName(name) == name <==> |name| <= 12 || (|name| == 15 && name[12..] == "...")
  {
    if |name| == 15 && name[12..] == "..." {
      assert name == name[..12] + name[12..];
    }
  }

  /** `PWA wrapper for ${name}`. */
  function Description(name: string): (d: string)
    ensures StartsWith(d, "PWA wrapper for ") && d[16..] == name
  {
    "PWA wrapper for " + name
  }

  /** The manifest names the app it was built for: distinct names give
      distinct descriptions. */
  lemma DescriptionInjective(a: string, b: string)
    requires Description(a) == Description(b)
    ensures a == b
  {
    assert a == Description(a)[16..];
  }

  datatype ManifestIcon = ManifestIcon(src: string, sizes: string, mime: string, purpose: string)

  datatype Manifest = Manifest(
    name: string,
    shortName: string,
    description: string,
    startUrl: string,
    display: string,
    orientation: string,
    backgroundColor: string,
    themeColor: string,
    icons: seq<ManifestIcon>)

  /** The icon every generated project references, relative to the project. */
  const IconFile := "icons/icon-512x512.png"

  /** The web app manifest generate-pwa.js serialises. */
  function BuildManifest(name: string): (m: Manifest)
    ensures m.name == name && m.shortName == ShortName(name)
    ensures StartsWith(m.description, "PWA wrapper for ") && m.description[16..] == name
    ensures |m.shortName| <= 15
    ensures m.startUrl == "/" && m.display == "standalone"
    ensures |m.icons| == 1 && m.icons[0].src == IconFile && m.icons[0].sizes == "512x512"
  {
    Manifest(name, ShortName(name), Description(name), "/", "standalone", "portrait",
             "#ffffff", "#3498db", [ManifestIcon(IconFile, "512x512", "image/png", "any maskable")])
  }

  // -------------------------------------------------------- registration path

  const WorkerFile := "service-worker.js"

  /** The path the shell page registers its worker at, computed from the
      page's own pathname: next to the page. */
  function RegistrationPath(current: string): (r: string)
    ensures EndsWith(r, WorkerFile)
    ensures var dir := r[..|r| - |WorkerFile|];
            && StartsWith(current, dir)
            && (dir == [] || dir[|dir| - 1] == '/')
            && '/' !in current[|dir|..]
  {
    if EndsWith(current, "/") then
      var r := current + WorkerFile;
      assert r[..|r| - |WorkerFile|] == current;
      r
    else
      var dir := current[..LastIndexOfChar(current, '/') + 1];
      DirPart(current);
      var r := dir + WorkerFile;
      assert r[..|r| - |WorkerFile|] == dir;
      assert r[|r| - |WorkerFile|..] == WorkerFile;
      r
  }

  /** What `substring(0, lastIndexOf('/') + 1)` keeps: a prefix that is empty
      or ends in `/`, with no `/` after it. */
  lemma DirPart(current: string)
    ensures var d := current[..LastIndexOfChar(current, '/') + 1];
            && StartsWith(current, d)
            && (d == [] || d[|d| - 1] == '/')
            && '/' !in current[|d|..]
  {
    var k := LastIndexOfChar(current, '/');
    var d, rest := current[..k + 1], current[k + 1..];
    assert |d| == k + 1;
    assert current[..|d|] == d;
    assert current[|d|..] == rest;
    forall j | 0 <= j < |rest| ensures rest[j] != '/' {
      assert rest[j] == current[k + 1 + j];
    }
    assert '/' !in rest;
    if k >= 0 {
      assert d[|d| - 1] == current[k];
    }
  }

  /** The directory part of a path: the longest prefix ending in `/`. It is
      pinned down by being a prefix, ending in `/` (or empty) and leaving no
      `/` after it. */
  lemma {:induction false} DirUnique(s: string, d: string, f: string)
    requires s == d + f && (d == [] || d[|d| - 1] == '/') && '/' !in f
    ensures s[..LastIndexOfChar(s, '/') + 1] == d
  {
    var k := LastIndexOfChar(s, '/');
    forall j | |d| <= j < |s| ensures s[j] != '/' {
      assert s[j] == f[j - |d|];
    }
    assert k < |d|;
    if d != [] {
      assert s[|d| - 1] == '/';
      assert k >= |d| - 1;
    }
    assert k + 1 == |d|;
    assert s[..|d|] == d;
  }

  /** The two branches agree: a path ending in `/` is its own directory part,
      so the shortcut the page takes for it changes nothing. */
  lemma RegistrationBranchesAgree(current: string)
    requires EndsWith(current, "/")
    ensures RegistrationPath(current) == current[..LastIndexOfChar(current, '/') + 1] + WorkerFile
  {
    DirUnique(current, current, []);
    assert current + [] == current;
  }

  /** Registering from the worker's own path points at the worker again. */
  lemma RegistrationPathIdempotent(current: string)
    ensures RegistrationPath(RegistrationPath(current)) == RegistrationPath(current)
  {
    var r := RegistrationPath(current);
    var dir := r[..|r| - |WorkerFile|];
    assert r == dir + WorkerFile;
    WorkerPathRegistersItself(r, dir);
  }

  /** A directory followed by the worker file is its own registration path. */
  lemma WorkerPathRegistersItself(r: string, dir: string)
    requires r == dir + WorkerFile && (dir == [] || dir[|dir| - 1] == '/')
    ensures RegistrationPath(r) == r
  {
    assert '/' !in WorkerFile;
    assert !EndsWith(r, "/") by {
      assert r[|r| - 1] == WorkerFile[|WorkerFile| - 1];
    }
    DirUnique(r, dir, WorkerFile);
  }

  // ------------------------------------------------------------- icon source

  predicate IsRemote(src: string) {
    StartsWith(src, "http://") || StartsWith(src, "https://")
  }

  /** What `fs.existsSync` finds at a path: a file whose bytes can be read, or
      something that exists but cannot be read as a file. */
  datatype FsEntry = File(bytes: Bytes) | Unreadable

  /** The four kinds of icon source, in the order generate-pwa.js tests them. */
  datatype IconSource =
    | Remote(url: string)
    | DataUri(payload: Option<string>)
    | LocalFile(path: string)
    | Unresolvable

  function ClassifyIcon(src: string, files: map<string, FsEntry>): (k: IconSource)
    ensures k.Remote? <==> IsRemote(src)
    ensures k.DataUri? <==> !IsRemote(src) && StartsWith(src, "data:image/")
    ensures k.LocalFile? <==> !IsRemote(src) && !StartsWith(src, "data:image/") && src in files
    ensures k.Unresolvable? <==> !IsRemote(src) && !StartsWith(src, "data:image/") && src !in files
    ensures k.Remote? ==> k.url == src
    ensures k.LocalFile? ==> k.path == src
    ensures k.DataUri? ==> k.payload == SecondField(src, ',')
    ensures k.DataUri? ==> (k.payload.None? <==> ',' !in src)
  {
    if IsRemote(src) then Remote(src)
    else if StartsWith(src, "data:image/") then DataUri(SecondField(src, ','))
    else if src in files then LocalFile(src)
    else Unresolvable
  }

  /** The `.ico` test: the source ends in `.ico`, or it is a URL that mentions
      `.ico` anywhere. */
  predicate IsIco(src: string) {
    EndsWith(src, ".ico") || (IsRemote(src) && Contains(src, ".ico"))
  }

  /** For a URL the test is plain containment; for anything else it is the
      extension. */
  lemma IsIcoByKind(src: string)
    ensures IsRemote(src) ==> (IsIco(src) <==> Contains(src, ".ico"))
    ensures !IsRemote(src) ==> (IsIco(src) <==> EndsWith(src, ".ico"))
  {
    if EndsWith(src, ".ico") {
      EndsWithImpliesContains(src, ".ico");
    }
  }

  // --------------------------------------------------------- icon processing

  /** The outcomes of the calls the icon step makes into code outside the
      model: the download, the file system, base64 decoding (which never
      fails) and the image library's 512x512 cover resize. */
  datatype IconEnv = IconEnv(
    download: string -> Option<Bytes>,
    files: map<string, FsEntry>,
    decode: string -> Bytes,
    resize: Bytes -> Option<Bytes>)

  /** What ends up in the icon file: the resized picture, or the built-in 1x1
      transparent PNG. */
  datatype Image = Resized(png: Bytes) | Placeholder

  /** The observable steps of the icon step, in order. */
  datatype Effect =
    | Download(url: string)
    | ReadFile(path: string)
    | DecodeBase64(payload: string)
    | ResizeTo512
    | WriteFile(path: string, image: Image)

  /** The bytes the source yields, if any: a failed download, a data URI
      without a comma and an unreadable path yield none. */
  function SourceBytes(src: string, env: IconEnv): Option<Bytes> {
    match ClassifyIcon(src, env.files)
    case Remote(u) => env.download(u)
    case DataUri(p) => if p.Some? then Some(env.decode(p.value)) else None
    case LocalFile(path) => if env.files[path].File? then Some(env.files[path].bytes) else None
    case Unresolvable => None
  }

  /** The icon the step should leave behind: the resized bytes when there
      are bytes and the resize succeeds, otherwise the placeholder. */
  function ExpectedImage(src: string, env: IconEnv): Image {
    match SourceBytes(src, env)
    case None => Placeholder
    case Some(b) => if env.resize(b).Some? then Resized(env.resize(b).value) else Placeholder
  }

  /** The reading step: what it does, and the bytes it obtained. */
  function Acquire(kind: IconSource, env: IconEnv): (got: (seq<Effect>, Option<Bytes>))
    ensures |got.0| <= 1 && forall i :: 0 <= i < |got.0| ==> !got.0[i].WriteFile?
    ensures kind.Remote? ==> got.0 == [Download(kind.url)]
    ensures kind.LocalFile? ==> got.0 == [ReadFile(kind.path)]
  {
    match kind
    case Remote(u) => ([Download(u)], env.download(u))
    case DataUri(p) => if p.Some? then ([DecodeBase64(p.value)], Some(env.decode(p.value))) else ([], None)
    case LocalFile(path) =>
      ([ReadFile(path)], if path in env.files && env.files[path].File? then Some(env.files[path].bytes) else None)
    case Unresolvable => ([], None)
  }

  /** The reading step yields exactly the bytes the source holds. */
  lemma AcquireReadsSource(src: string, env: IconEnv)
    ensures Acquire(ClassifyIcon(src, env.files), env).1 == SourceBytes(src, env)
  {
  }

  /** `processIcon(iconSource, outputPath)`: every path through it, the
      `.ico` attempt and every failure included, ends in exactly one write to
      `out`, and what is written is the expected image. An unresolvable
      source reads nothing and writes only the placeholder. */
  function ProcessIcon(src: string, out: string, env: IconEnv): (effects: seq<Effect>)
    ensures |effects| > 0 && effects[|effects| - 1] == WriteFile(out, ExpectedImage(src, env))
    ensures forall i :: 0 <= i < |effects| - 1 ==> !effects[i].WriteFile?
    ensures ClassifyIcon(src, env.files).Unresolvable? ==> effects == [WriteFile(out, Placeholder)]
    ensures ClassifyIcon(src, env.files).Remote? ==> effects[0] == Download(src)
    ensures ClassifyIcon(src, env.files).LocalFile? ==> effects[0] == ReadFile(src)
  {
    var kind := ClassifyIcon(src, env.files);
    if kind.Unresolvable? then
      [WriteFile(out, Placeholder)]
    else
      AcquireReadsSource(src, env);
      var acquired := Acquire(kind, env);
      var steps := acquired.0;
      var bytes := acquired.1;
      if bytes.None? then
        steps + [WriteFile(out, Placeholder)]
      else if IsIco(src) then
        var png := env.resize(bytes.value);
        if png.Some? then steps + [ResizeTo512, WriteFile(out, Resized(png.value))]
        else steps + [ResizeTo512, WriteFile(out, Placeholder)]
      else
        var png := env.resize(bytes.value);
        if png.Some? then steps + [ResizeTo512, WriteFile(out, Resized(png.value))]
        else steps + [ResizeTo512, WriteFile(out, Placeholder)]
  }

  /** The resize is attempted exactly when the source yielded bytes, and a
      resized picture is written only then. */
  lemma ResizeOnlyWithBytes(src: string, out: string, env: IconEnv)
    ensures ResizeTo512 in ProcessIcon(src, out, env) <==> SourceBytes(src, env).Some?
    ensures ExpectedImage(src, env).Resized? ==> SourceBytes(src, env).Some?
  {
  }

  // ------------------------------------------------------------------ project

  /** The parts of the shell page that depend on the inputs or link to the
      other files; the rest of its markup is fixed text. */
  datatype ShellPage = ShellPage(title: string, frameSrc: string, frameTitle: string,
                                 manifestHref: string, iconHref: string)

  function BuildShellPage(url: string, name: string): (p: ShellPage)
    ensures p.title == name && p.frameTitle == name && p.frameSrc == url
  {
    ShellPage(name, url, name, "manifest.json", IconFile)
  }

  /** The worker script as written: the references it holds. */
  datatype WorkerSource = WorkerSource(version: string, assets: seq<string>, iconPrefix: string,
                                       iconFallback: string, shellFallback: string)

  const GeneratedWorker := WorkerSource("v1", ["./", "./index.html", "./manifest.json", "./icons/icon-512x512.png"],
                                        "./icons/", "./icons/icon-512x512.png", "./index.html")

  /** The worker a script becomes once served from `scope` at `origin`. */
  function Deploy(w: WorkerSource, origin: string, scope: string): (cfg: ServiceWorker.WorkerConfig)
    ensures cfg.origin == origin && cfg.scope == scope && cfg.assets == w.assets && cfg.version == w.version
  {
    ServiceWorker.WorkerConfig(origin, scope, w.version, w.assets, w.iconPrefix, w.iconFallback, w.shellFallback)
  }

  /** The script generate-pwa.js writes is the `./`-relative worker. */
  lemma GeneratedWorkerIsTemplate(origin: string, scope: string)
    ensures Deploy(GeneratedWorker, origin, scope) == ServiceWorker.TemplateWorker(origin, scope)
  {
  }

  datatype FileContent = Html(page: ShellPage) | Json(manifest: Manifest) | Script(worker: WorkerSource) | Png(image: Image)

  datatype Written = Written(path: string, content: FileContent)

  datatype GenOutcome =
    | Usage
    | Generated(projectDir: string, files: seq<Written>, iconEffects: seq<Effect>)

  /** A command-line argument; a missing one reads as the empty string, which
      is as falsy as `undefined`. */
  function Arg(args: seq<string>, i: nat): string {
    if i < |args| then args[i] else ""
  }

  /** `args[2] || 'default'`. */
  function IconArg(args: seq<string>): (icon: string)
    ensures icon != []
    ensures Arg(args, 2) != [] ==> icon == Arg(args, 2)
    ensures Arg(args, 2) == [] ==> icon == "default"
  {
    if Arg(args, 2) != [] then Arg(args, 2) else "default"
  }

  /** The four files a run writes into `dir`, in order, the icon holding
      `image`; their paths are the ones the server reports. */
  function ProjectFiles(dir: string, url: string, name: string, image: Image): (files: seq<Written>)
    requires dir == ProjectDir(name)
    ensures |files| == 4
    ensures forall i :: 0 <= i < 4 ==> files[i].path == OutputFiles(name)[i]
    ensures files[0].content == Html(BuildShellPage(url, name)) && files[1].content == Json(BuildManifest(name))
    ensures files[2].content == Script(GeneratedWorker) && files[3].content == Png(image)
  {
    [
      Written(dir + "/" + "index.html", Html(BuildShellPage(url, name))),
      Written(dir + "/" + "manifest.json", Json(BuildManifest(name))),
      Written(dir + "/" + WorkerFile, Script(GeneratedWorker)),
      Written(dir + "/" + IconFile, Png(image))
    ]
  }

  /** A whole run of generate-pwa.js on `args`. */
  function Generate(args: seq<string>, env: IconEnv): (g: GenOutcome)
    ensures g.Usage? <==> Arg(args, 0) == [] || Arg(args, 1) == []
    ensures g.Generated? ==>
              var name := Arg(args, 1);
              && g.projectDir == ProjectDir(name)
              && |g.files| == 4
              && (forall i :: 0 <= i < 4 ==> g.files[i].path == OutputFiles(name)[i])
              && g.files[0].content == Html(BuildShellPage(Arg(args, 0), name))
              && g.files[1].content == Json(BuildManifest(name))
              && g.files[2].content == Script(GeneratedWorker)
              && g.files[3].content == Png(ExpectedImage(IconArg(args), env))
              && |g.iconEffects| > 0
              && g.iconEffects[|g.iconEffects| - 1] == WriteFile(g.files[3].path, g.files[3].content.image)
  {
    var url, name := Arg(args, 0), Arg(args, 1);
    if url == [] || name == [] then Usage
    else GenerateProject(url, name, IconArg(args), env)
  }

  /** The run past the argument check: the icon step, then the four files. */
  function GenerateProject(url: string, name: string, icon: string, env: IconEnv): (g: GenOutcome)
    ensures g.Generated?
    ensures g.projectDir == ProjectDir(name)
    ensures |g.files| == 4 && forall i :: 0 <= i < 4 ==> g.files[i].path == OutputFiles(name)[i]
    ensures g.files[0].content == Html(BuildShellPage(url, name)) && g.files[1].content == Json(BuildManifest(name))
    ensures g.files[2].content == Script(GeneratedWorker)
    ensures g.files[3].content == Png(ExpectedImage(icon, env))
    ensures |g.iconEffects| > 0 && g.iconEffects[|g.iconEffects| - 1] == WriteFile(g.files[3].path, g.files[3].content.image)
  {
    var dir := ProjectDir(name);
    var effects := ProcessIcon(icon, dir + "/" + IconFile, env);
    Generated(dir, ProjectFiles(dir, url, name, effects[|effects| - 1].image), effects)
  }

  /** Every link inside the project resolves, relative to the project
      directory, to a file the project writes: the page's manifest and icon
      links, the manifest's icon, the worker the page registers when it is
      served from the project directory, and the `./` references the worker
      holds: its shell fallback is the page, its icon fallback is the icon,
      and every asset it precaches but the directory itself is a written
      file. */
  lemma LinksResolveToWrittenFiles(url: string, name: string)
    ensures var files := OutputFiles(name);
            var dir := ProjectDir(name) + "/";
            var page := BuildShellPage(url, name);
            && dir + page.manifestHref == files[1]
            && dir + page.iconHref == files[3]
            && dir + BuildManifest(name).icons[0].src == files[3]
            && RegistrationPath(dir) == files[2]
            && dir + GeneratedWorker.shellFallback[2..] == files[0]
            && dir + GeneratedWorker.iconFallback[2..] == files[3]
            && (forall i :: 1 <= i < |GeneratedWorker.assets| ==> dir + GeneratedWorker.assets[i][2..] in files)
  {
    var dir := ProjectDir(name) + "/";
    assert EndsWith(dir, "/");
    WorkerReferencesResolve(dir, name);
  }

  /** The worker's half of the link check: its fallbacks and precached
      assets, taken relative to the project directory. */
  lemma WorkerReferencesResolve(dir: string, name: string)
    requires dir == ProjectDir(name) + "/"
    ensures var files := OutputFiles(name);
            && dir + GeneratedWorker.shellFallback[2..] == files[0]
            && dir + GeneratedWorker.iconFallback[2..] == files[3]
            && (forall i :: 1 <= i < |GeneratedWorker.assets| ==> dir + GeneratedWorker.assets[i][2..] in files)
  {
    ReferencedFileNames();
  }

  /** The `./` references of the written worker, with the `./` taken off. */
  lemma ReferencedFileNames()
    ensures GeneratedWorker.assets[1][2..] == "index.html" && GeneratedWorker.assets[2][2..] == "manifest.json"
    ensures GeneratedWorker.assets[3][2..] == IconFile
    ensures GeneratedWorker.shellFallback == GeneratedWorker.assets[1]
    ensures GeneratedWorker.iconFallback == GeneratedWorker.assets[3]
  {
  }
}

=== FILE: options.dfy ===
/** Failure-carrying wrappers used across the model: an optional value (a
    JavaScript `undefined` or a thrown-and-caught error) and a result that
    carries an error message. */
module Options {

  datatype Option<+T> = None | Some(value: T) {

    /** The value, or `default` when there is none (JavaScript's `x || default`
        for a value that is never falsy once present). */
    function GetOr(default: T): T {
      match this
      case Some(v) => v
      case None => default
    }
  }

  datatype Result<+T> = Ok(value: T) | Err(message: string)
}

=== FILE: project.dfy ===
/** Naming of a generated project, shared by the generator script
    (generate-pwa.js) and the HTTP endpoint that runs it (server.js): the
    project slug, the project directory and the four output files. */
module Project {
  import opened Strings

  /** `s.replace(/\s+/g, '-')`, scanning left to right; `inRun` holds when the
      character before `s` was whitespace, so its run already produced a `-`. */
  function Hyphenate(s: string, inRun: bool): string
    decreases |s|
  {
    if |s| == 0 then [] else Emit(s[0], inRun) + Hyphenate(s[1..], IsWhitespace(s[0]))
  }

  /** What the scan outputs for one character: a whitespace character opens a
      run with a `-` or continues one silently; any other character is kept. */
  function Emit(c: char, inRun: bool): string {
    if IsWhitespace(c) then (if inRun then [] else "-") else [c]
  }

  /** Whether a scan that started with `inRun` is inside a whitespace run
      after reading `s`. */
  function EndsInRun(s: string, inRun: bool): bool {
    if |s| == 0 then inRun else IsWhitespace(s[|s| - 1])
  }

  /** `name.toLowerCase().replace(/\s+/g, '-')`. */
  function Slug(name: string): string {
    Hyphenate(ToLower(name), false)
  }

  /** `build/<slug>`. */
  function ProjectDir(name: string): (dir: string)
    ensures StartsWith(dir, "build/") && dir[6..] == Slug(name)
  {
    "build/" + Slug(name)
  }

  /** The four files a generation writes, in the order it writes them. */
  function OutputFiles(name: string): (files: seq<string>)
    ensures |files| == 4
    ensures forall i :: 0 <= i < 4 ==> StartsWith(files[i], ProjectDir(name) + "/")
    ensures forall i, j :: 0 <= i < j < 4 ==> files[i] != files[j]
  {
    var dir := ProjectDir(name);
    var names := ["index.html", "manifest.json", "service-worker.js", "icons/icon-512x512.png"];
    var files := [dir + "/" + names[0], dir + "/" + names[1], dir + "/" + names[2], dir + "/" + names[3]];
    forall i | 0 <= i < 4 ensures StartsWith(files[i], dir + "/") {
      assert files[i][..|dir| + 1] == dir + "/";
    }
    forall i, j | 0 <= i < j < 4 ensures files[i] != files[j] {
      assert files[i][|dir| + 1..] == names[i] && files[j][|dir| + 1..] == names[j];
    }
    files
  }

  lemma {:induction false} HyphenateNoWhitespace(s: string, inRun: bool)
    ensures NoWhitespace(Hyphenate(s, inRun))
    decreases |s|
  {
    if |s| > 0 {
      HyphenateNoWhitespace(s[1..], IsWhitespace(s[0]));
    }
  }

  /** Hyphenating is a left-to-right scan: a concatenation is hyphenated
      piecewise, the second piece starting in whatever run state the first
      left behind. */
  lemma {:induction false} HyphenateConcat(a: string, b: string, inRun: bool)
    ensures Hyphenate(a + b, inRun) == Hyphenate(a, inRun) + Hyphenate(b, EndsInRun(a, inRun))
    decreases |a|
  {
    if |a| == 0 {
      assert a + b == b;
    } else {
      var c := a[0];
      assert (a + b)[0] == c;
      assert (a + b)[1..] == a[1..] + b;
      calc {
        Hyphenate(a + b, inRun);
        Emit(c, inRun) + Hyphenate(a[1..] + b, IsWhitespace(c));
        { HyphenateConcat(a[1..], b, IsWhitespace(c)); }
        Emit(c, inRun) + (Hyphenate(a[1..], IsWhitespace(c)) + Hyphenate(b, EndsInRun(a[1..], IsWhitespace(c))));
        { assert EndsInRun(a[1..], IsWhitespace(c)) == EndsInRun(a, inRun); }
        (Emit(c, inRun) + Hyphenate(a[1..], IsWhitespace(c))) + Hyphenate(b, EndsInRun(a, inRun));
      }
    }
  }

  /** A string without whitespace is left as it is. */
  lemma {:induction false} HyphenateFixesWordChars(s: string, inRun: bool)
    requires NoWhitespace(s)
    ensures Hyphenate(s, inRun) == s
    decreases |s|
  {
    if |s| > 0 {
      HyphenateFixesWordChars(s[1..], false);
      assert s == [s[0]] + s[1..];
    }
  }

  /** A non-empty whitespace run is replaced by exactly one `-`, whatever the
      state the scan was in. */
  lemma {:induction false} HyphenateRun(w: string, inRun: bool)
    requires |w| > 0 && AllWhitespace(w)
    ensures Hyphenate(w, inRun) == (if inRun then [] else "-")
    decreases |w|
  {
    if |w| > 1 {
      HyphenateRun(w[1..], true);
    }
  }

  /** Lower-casing only maps letters to letters, so a lower-cased string is
      still lower-cased after hyphenation. */
  lemma {:induction false} HyphenateKeepsLowerCase(s: string, inRun: bool)
    requires ToLower(s) == s
    ensures ToLower(Hyphenate(s, inRun)) == Hyphenate(s, inRun)
    decreases |s|
  {
    if |s| > 0 {
      assert ToLower(s[1..]) == s[1..] by {
        forall i | 0 <= i < |s[1..]| ensures LowerChar(s[1..][i]) == s[1..][i] {
          assert s[1..][i] == s[i + 1];
        }
      }
      HyphenateKeepsLowerCase(s[1..], IsWhitespace(s[0]));
      assert LowerChar(s[0]) == s[0];
      ToLowerConcat(Emit(s[0], inRun), Hyphenate(s[1..], IsWhitespace(s[0])));
    }
  }

  /** The slug holds no whitespace. */
  lemma SlugHasNoWhitespace(name: string)
    ensures NoWhitespace(Slug(name))
  {
    HyphenateNoWhitespace(ToLower(name), false);
  }

  /** Slugging a slug changes nothing. */
  lemma SlugIdempotent(name: string)
    ensures Slug(Slug(name)) == Slug(name)
  {
    var s := Slug(name);
    ToLowerIdempotent(name);
    HyphenateKeepsLowerCase(ToLower(name), false);
    HyphenateNoWhitespace(ToLower(name), false);
    HyphenateFixesWordChars(s, false);
  }

  /** A name without whitespace is only lower-cased. */
  lemma SlugOfWord(name: string)
    requires NoWhitespace(name)
    ensures Slug(name) == ToLower(name)
  {
    HyphenateFixesWordChars(ToLower(name), false);
  }

  /** The run state only matters when the next character is whitespace. */
  lemma HyphenateAfterWordChar(s: string, inRun: bool)
    requires s == [] || !IsWhitespace(s[0])
    ensures Hyphenate(s, inRun) == Hyphenate(s, false)
  {
  }

  /** Each maximal whitespace run becomes one `-`: a name made of a part that
      does not end in whitespace, a whitespace run and a part that does not
      start with whitespace slugs to the two slugs joined by a single `-`. */
  lemma SlugJoinsAtRun(u: string, w: string, v: string)
    requires u == [] || !IsWhitespace(u[|u| - 1])
    requires |w| > 0 && AllWhitespace(w)
    requires v == [] || !IsWhitespace(v[0])
    ensures Slug(u + w + v) == Slug(u) + "-" + Slug(v)
  {
    var lu, lw, lv := ToLower(u), ToLower(w), ToLower(v);
    assert ToLower(u + w + v) == lu + lw + lv by {
      ToLowerConcat(u + w, v);
      ToLowerConcat(u, w);
    }
    assert AllWhitespace(lw);
    assert !EndsInRun(lu, false);
    assert Hyphenate(lu + lw, false) == Slug(u) + "-" by {
      HyphenateConcat(lu, lw, false);
      HyphenateRun(lw, false);
    }
    assert EndsInRun(lu + lw, false);
    assert Hyphenate(lv, true) == Slug(v) by {
      HyphenateAfterWordChar(lv, true);
    }
    HyphenateConcat(lu + lw, lv, false);
  }
}

=== FILE: service_worker.dfy ===
/** The offline worker (build/winbd/service-worker.js, and the same script as
    generate-pwa.js writes it out): a cache version, a list of static assets,
    and the install, activate and fetch handlers as transition functions over
    the cache storage, with the network's answers as parameters. */
module ServiceWorker {
  import opened Options
  import opened Strings
  import opened CacheStorage

  /** What distinguishes one instance of the worker script from another. The
      asset list, the icon prefix and the two fallbacks are written in the
      script as references; `scope` is the directory the script is served
      from, against which relative references resolve. */
  datatype WorkerConfig = WorkerConfig(
    origin: string,
    scope: string,
    version: string,
    assets: seq<string>,
    iconPrefix: string,
    iconFallback: string,
    shellFallback: string)

  /** `pwa-cache-${CACHE_VERSION}`. */
  function CacheName(cfg: WorkerConfig): (name: string)
    ensures StartsWith(name, "pwa-cache-") && name[10..] == cfg.version
  {
    "pwa-cache-" + cfg.version
  }

  const BuiltAssets: seq<string> := ["/", "/index.html", "/manifest.json", "/icons/icon-512x512.png"]

  const TemplateAssets: seq<string> := ["./", "./index.html", "./manifest.json", "./icons/icon-512x512.png"]

  /** The worker shipped under build/winbd: root-relative references. */
  function BuiltWorker(origin: string, scope: string): WorkerConfig {
    WorkerConfig(origin, scope, "v1", BuiltAssets, "/icons/", "/icons/icon-512x512.png", "/index.html")
  }

  /** The worker generate-pwa.js writes: `./`-relative references. */
  function TemplateWorker(origin: string, scope: string): WorkerConfig {
    WorkerConfig(origin, scope, "v1", TemplateAssets, "./icons/", "./icons/icon-512x512.png", "./index.html")
  }

  /** URL resolution of a reference written in the script against the
      script's directory, for the two forms the scripts use: a root-relative
      path stays as it is, a `./` path is taken relative to the directory. */
  function ResolvePath(scope: string, ref: string): (path: string)
    ensures StartsWith(ref, "/") ==> path == ref
    ensures !StartsWith(ref, "/") ==> StartsWith(path, scope)
  {
    if StartsWith(ref, "/") then ref
    else if StartsWith(ref, "./") then scope + ref[2..]
    else scope + ref
  }

  /** The request URL a reference in the script stands for. */
  function Resolve(cfg: WorkerConfig, ref: string): Url {
    Url(cfg.origin, ResolvePath(cfg.scope, ref), "")
  }

  function AssetUrls(cfg: WorkerConfig): (urls: seq<Url>)
    ensures |urls| == |cfg.assets|
    ensures forall i :: 0 <= i < |urls| ==> urls[i] == Resolve(cfg, cfg.assets[i])
  {
    seq(|cfg.assets|, i requires 0 <= i < |cfg.assets| => Resolve(cfg, cfg.assets[i]))
  }

  // ---------------------------------------------------------------- install

  /** The network's answer to one request: a response (of any status) or a
      failure (the promise returned by `fetch` rejects). */
  datatype NetOutcome = Reached(resp: Response) | Failed

  /** A response `cache.addAll` accepts. */
  predicate Delivered(o: NetOutcome) {
    o.Reached? && o.resp.Storable()
  }

  /** Every asset's request is answered with a storable response. */
  predicate AllDelivered(cfg: WorkerConfig, net: Url -> NetOutcome) {
    forall i :: 0 <= i < |cfg.assets| ==> Delivered(net(Resolve(cfg, cfg.assets[i])))
  }

  datatype InstallResult = InstallResult(storage: Storage, succeeded: bool)

  /** The install handler: `caches.open(CACHE_NAME)` and then
      `cache.addAll(STATIC_ASSETS)`, which stores every asset or, if any
      request fails or answers with a status it refuses, none. `net` gives
      the network's answer per URL. */
  function Install(cfg: WorkerConfig, st: Storage, net: Url -> NetOutcome): (r: InstallResult)
    requires UniqueNames(st)
    ensures UniqueNames(r.storage)
    ensures r.succeeded <==> AllDelivered(cfg, net)
    ensures Lookup(r.storage, CacheName(cfg)).Some?
    ensures r.succeeded ==>
              forall i :: 0 <= i < |cfg.assets| ==>
                var u := Resolve(cfg, cfg.assets[i]);
                u in Lookup(r.storage, CacheName(cfg)).value
                && Lookup(r.storage, CacheName(cfg)).value[u] == net(u).resp
    ensures var before := Lookup(st, CacheName(cfg)).GetOr(map[]);
            forall k :: k in before && k !in AssetUrls(cfg) ==>
              k in Lookup(r.storage, CacheName(cfg)).value
              && Lookup(r.storage, CacheName(cfg)).value[k] == before[k]
    ensures r.succeeded ==>
              forall k :: k in Lookup(r.storage, CacheName(cfg)).value ==>
                k in AssetUrls(cfg) || k in Lookup(st, CacheName(cfg)).GetOr(map[])
    ensures !r.succeeded ==> Lookup(r.storage, CacheName(cfg)) == Some(Lookup(st, CacheName(cfg)).GetOr(map[]))
    ensures forall other :: other != CacheName(cfg) ==> Lookup(r.storage, other) == Lookup(st, other)
    ensures KeepsPlaces(st, r.storage) && forall i :: 0 <= i < |st| && st[i].name != CacheName(cfg) ==> r.storage[i] == st[i]
  {
    var r := AddAll(st, CacheName(cfg), AssetUrls(cfg), net);
    AssetsCovered(cfg, net, r.succeeded, Lookup(r.storage, CacheName(cfg)).value);
    r
  }

  /** Reads `AddAll`'s promise about the resolved URLs as one about the
      configured assets. */
  lemma AssetsCovered(cfg: WorkerConfig, net: Url -> NetOutcome, succeeded: bool, stored: Entries)
    requires var urls := AssetUrls(cfg);
             && (succeeded <==> forall i :: 0 <= i < |urls| ==> Delivered(net(urls[i])))
             && (succeeded ==> forall i :: 0 <= i < |urls| ==> urls[i] in stored && stored[urls[i]] == net(urls[i]).resp)
    ensures succeeded <==> AllDelivered(cfg, net)
    ensures succeeded ==>
              forall i :: 0 <= i < |cfg.assets| ==>
                var u := Resolve(cfg, cfg.assets[i]);
                u in stored && stored[u] == net(u).resp
  {
    var urls := AssetUrls(cfg);
    forall i | 0 <= i < |cfg.assets| ensures urls[i] == Resolve(cfg, cfg.assets[i]) { }
  }

  /** `caches.open(name)` and then `cache.addAll(urls)`: every URL's response
      is stored, or none when one of them is not delivered. */
  function AddAll(st: Storage, name: string, urls: seq<Url>, net: Url -> NetOutcome): (r: InstallResult)
    requires UniqueNames(st)
    ensures UniqueNames(r.storage)
    ensures r.succeeded <==> forall i :: 0 <= i < |urls| ==> Delivered(net(urls[i]))
    ensures Lookup(r.storage, name).Some?
    ensures r.succeeded ==>
              forall i :: 0 <= i < |urls| ==>
                urls[i] in Lookup(r.storage, name).value && Lookup(r.storage, name).value[urls[i]] == net(urls[i]).resp
    ensures var before := Lookup(st, name).GetOr(map[]);
            forall k :: k in before && k !in urls ==>
              k in Lookup(r.storage, name).value && Lookup(r.storage, name).value[k] == before[k]
    ensures r.succeeded ==>
              forall k :: k in Lookup(r.storage, name).value ==> k in urls || k in Lookup(st, name).GetOr(map[])
    ensures !r.succeeded ==> Lookup(r.storage, name) == Some(Lookup(st, name).GetOr(map[]))
    ensures forall other :: other != name ==> Lookup(r.storage, other) == Lookup(st, other)
    ensures KeepsPlaces(st, r.storage) && forall i :: 0 <= i < |st| && st[i].name != name ==> r.storage[i] == st[i]
  {
    var created := Open(st, name);
    var before := Lookup(st, name).GetOr(map[]);
    assert Lookup(created, name) == Some(before);
    assert KeepsPlaces(st, created);
    if forall i :: 0 <= i < |urls| ==> Delivered(net(urls[i])) then
      var batch := map u | u in urls && Delivered(net(u)) :: net(u).resp;
      var filled := PutAll(created, name, batch);
      InstallFilled(st, name, urls, net, created, batch, filled);
      InstallResult(filled, true)
    else
      InstallResult(created, false)
  }

  /** What the successful branch of `Install` leaves behind in the cache
      `name`, given the delivered responses for `urls`. */
  lemma InstallFilled(st: Storage, name: string, urls: seq<Url>, net: Url -> NetOutcome,
                      created: Storage, batch: Entries, filled: Storage)
    requires UniqueNames(st) && created == Open(st, name)
    requires forall i :: 0 <= i < |urls| ==> Delivered(net(urls[i]))
    requires batch == map u | u in urls && Delivered(net(u)) :: net(u).resp
    requires filled == PutAll(created, name, batch)
    ensures Lookup(filled, name) == Some(Lookup(st, name).GetOr(map[]) + batch)
    ensures forall i :: 0 <= i < |urls| ==>
              urls[i] in Lookup(filled, name).value && Lookup(filled, name).value[urls[i]] == net(urls[i]).resp
    ensures var before := Lookup(st, name).GetOr(map[]);
            forall k :: k in before && k !in urls ==>
              k in Lookup(filled, name).value && Lookup(filled, name).value[k] == before[k]
    ensures forall k :: k in Lookup(filled, name).value ==> k in urls || k in Lookup(st, name).GetOr(map[])
    ensures KeepsPlaces(st, filled) && forall i :: 0 <= i < |st| && st[i].name != name ==> filled[i] == st[i]
  {
    var before := Lookup(st, name).GetOr(map[]);
    assert Lookup(created, name) == Some(before);
    BatchCovers(urls, net, batch, before);
    PlacesPinned(created, filled, name);
    KeepsPlacesTwice(st, created, filled, name);
  }

  /** Opening and then storing into the opened cache keeps every place. */
  lemma KeepsPlacesTwice(st: Storage, created: Storage, filled: Storage, name: string)
    requires KeepsPlaces(st, created) && KeepsPlaces(created, filled) && |filled| == |created|
    requires forall i :: 0 <= i < |st| ==> created[i] == st[i]
    requires forall i :: 0 <= i < |created| && created[i].name != name ==> filled[i] == created[i]
    ensures KeepsPlaces(st, filled) && forall i :: 0 <= i < |st| && st[i].name != name ==> filled[i] == st[i]
  {
  }

  lemma BatchCovers(urls: seq<Url>, net: Url -> NetOutcome, batch: Entries, before: Entries)
    requires forall i :: 0 <= i < |urls| ==> Delivered(net(urls[i]))
    requires batch == map u | u in urls && Delivered(net(u)) :: net(u).resp
    ensures forall i :: 0 <= i < |urls| ==> urls[i] in before + batch && (before + batch)[urls[i]] == net(urls[i]).resp
    ensures forall k :: k in before && k !in urls ==> k in before + batch && (before + batch)[k] == before[k]
    ensures forall k :: k in before + batch ==> k in urls || k in before
  {
    forall i | 0 <= i < |urls| ensures urls[i] in batch {
      assert Delivered(net(urls[i]));
    }
  }

  // --------------------------------------------------------------- activate

  /** The activate handler: every cache whose name is not `CACHE_NAME` is
      deleted. */
  function Activate(cfg: WorkerConfig, st: Storage): (r: Storage)
    ensures forall i :: 0 <= i < |r| ==> r[i].name == CacheName(cfg)
    ensures Lookup(r, CacheName(cfg)) == Lookup(st, CacheName(cfg))
    ensures UniqueNames(st) ==> UniqueNames(r) && |r| <= 1
  {
    Retain(st, CacheName(cfg))
  }

  /** Activating a second time deletes nothing more. */
  lemma ActivateIdempotent(cfg: WorkerConfig, st: Storage)
    requires UniqueNames(st)
    ensures Activate(cfg, Activate(cfg, st)) == Activate(cfg, st)
  {
    var r := Activate(cfg, st);
    if |r| == 1 {
      assert r[1..] == [];
    }
  }

  // ------------------------------------------------------------------ fetch

  /** The outcome of one intercepted request: what `respondWith` receives
      (None stands for `undefined`, which the page sees as a network error),
      the storage afterwards, and whether a network request was issued. */
  datatype FetchResult = FetchResult(response: Option<Response>, storage: Storage, usedNetwork: bool)

  /** `STATIC_ASSETS.includes(url.pathname) || url.pathname.startsWith(<icons>)`,
      comparing the pathname with the references as written. */
  predicate IsStatic(cfg: WorkerConfig, pathname: string) {
    pathname in cfg.assets || StartsWith(pathname, cfg.iconPrefix)
  }

  /** Cache first: a cached entry is served as it is; on a miss the network
      answers, and an ok answer is also stored under the request in
      `CACHE_NAME` (`cache.put`, whose promise nobody waits for, taken here to
      have completed); if the network fails, the cached icon (for icon
      requests) or the cached shell page is served. */
  function CacheFirst(cfg: WorkerConfig, st: Storage, req: Request, net: NetOutcome, iconRequest: bool): (r: FetchResult)
    requires UniqueNames(st)
    ensures UniqueNames(r.storage)
    ensures MatchRequest(st, req).Some? ==> r == FetchResult(MatchRequest(st, req), st, false)
    ensures MatchRequest(st, req).None? ==> r.usedNetwork
    ensures MatchRequest(st, req).None? && net.Reached? ==> r.response == Some(net.resp)
    ensures MatchRequest(st, req).None? && net.Reached? && !net.resp.Ok() ==> r.storage == st
    ensures MatchRequest(st, req).None? && net.Reached? && net.resp.Storable() && req.verb == "GET" ==>
              && Lookup(r.storage, CacheName(cfg)) == Some(Lookup(st, CacheName(cfg)).GetOr(map[])[req.url := net.resp])
              && forall other :: other != CacheName(cfg) ==> Lookup(r.storage, other) == Lookup(st, other)
    ensures MatchRequest(st, req).None? && net.Failed? ==>
              && r.storage == st
              && r.response == Match(st, Resolve(cfg, if iconRequest then cfg.iconFallback else cfg.shellFallback))
    ensures MatchRequest(st, req).None? && net.Reached? && net.resp.Ok() && !(req.verb == "GET" && net.resp.Storable()) ==>
              && Lookup(r.storage, CacheName(cfg)) == Some(Lookup(st, CacheName(cfg)).GetOr(map[]))
              && forall other :: other != CacheName(cfg) ==> Lookup(r.storage, other) == Lookup(st, other)
    ensures HasCache(st, CacheName(cfg)) ==> forall n :: HasCache(r.storage, n) <==> HasCache(st, n)
    ensures KeepsPlaces(st, r.storage)
  {
    match MatchRequest(st, req)
    case Some(hit) => FetchResult(Some(hit), st, false)
    case None =>
      match net
      case Reached(resp) =>
        var after :=
          if !resp.Ok() then st
          else if req.verb == "GET" && resp.Storable() then Put(st, CacheName(cfg), req.url, resp)
          else Open(st, CacheName(cfg));
        FetchResult(Some(resp), after, true)
      case Failed =>
        var fallback := if iconRequest then cfg.iconFallback else cfg.shellFallback;
        FetchResult(Match(st, Resolve(cfg, fallback)), st, true)
  }

  /** Network first: the network's answer is returned whatever its status and
      nothing is stored; if the network fails, the request's cached entry or
      else the cached shell page is served. */
  function NetworkFirst(cfg: WorkerConfig, st: Storage, req: Request, net: NetOutcome): (r: FetchResult)
    ensures r.storage == st && r.usedNetwork
    ensures net.Reached? ==> r.response == Some(net.resp)
    ensures net.Failed? && MatchRequest(st, req).Some? ==> r.response == MatchRequest(st, req)
    ensures net.Failed? && MatchRequest(st, req).None? ==> r.response == Match(st, Resolve(cfg, cfg.shellFallback))
  {
    match net
    case Reached(resp) => FetchResult(Some(resp), st, true)
    case Failed =>
      var cached := MatchRequest(st, req);
      FetchResult(if cached.Some? then cached else Match(st, Resolve(cfg, cfg.shellFallback)), st, true)
  }

  /** The fetch handler as written: the static test on the pathname picks the
      strategy. */
  function Fetch(cfg: WorkerConfig, st: Storage, req: Request, net: NetOutcome): (r: FetchResult)
    requires UniqueNames(st)
    ensures UniqueNames(r.storage)
    ensures !IsStatic(cfg, req.url.pathname) ==> r.storage == st && r.usedNetwork
    ensures !IsStatic(cfg, req.url.pathname) && net.Reached? ==> r.response == Some(net.resp)
    ensures IsStatic(cfg, req.url.pathname) && MatchRequest(st, req).Some? ==>
              r.response == MatchRequest(st, req) && r.storage == st && !r.usedNetwork
    ensures IsStatic(cfg, req.url.pathname) && MatchRequest(st, req).None? && net.Failed? ==>
              r.response == Match(st, Resolve(cfg, if StartsWith(req.url.pathname, cfg.iconPrefix)
                                                   then cfg.iconFallback else cfg.shellFallback))
    ensures IsStatic(cfg, req.url.pathname) ==>
              r == CacheFirst(cfg, st, req, net, StartsWith(req.url.pathname, cfg.iconPrefix))
    ensures !IsStatic(cfg, req.url.pathname) ==> r == NetworkFirst(cfg, st, req, net)
  {
    var path := req.url.pathname;
    if IsStatic(cfg, path) then CacheFirst(cfg, st, req, net, StartsWith(path, cfg.iconPrefix))
    else NetworkFirst(cfg, st, req, net)
  }

  // ---------------------------------------------------------- classification

  /** The worker's cache name and asset list. */
  lemma BuiltConstants(origin: string, scope: string)
    ensures CacheName(BuiltWorker(origin, scope)) == "pwa-cache-v1"
    ensures |BuiltWorker(origin, scope).assets| == 4
    ensures CacheName(TemplateWorker(origin, scope)) == CacheName(BuiltWorker(origin, scope))
  {
  }

  /** In the shipped worker, a request is static exactly when its pathname is
      the root, the shell page, the manifest, or lies under `/icons/` (the
      listed icon is already covered by the prefix). */
  lemma BuiltStaticPaths(origin: string, scope: string, pathname: string)
    ensures IsStatic(BuiltWorker(origin, scope), pathname) <==>
              || pathname == "/" || pathname == "/index.html" || pathname == "/manifest.json"
              || StartsWith(pathname, "/icons/")
  {
    if pathname == "/icons/icon-512x512.png" {
      assert StartsWith(pathname, "/icons/");
    }
  }

  /** In the generated worker the references keep their `./`, while a URL's
      pathname always begins with `/`: no request is ever classified static,
      so every request, an installed asset included, goes to the network
      first, and the worker never stores anything after install. */
  lemma TemplateRoutesEverythingToNetwork(origin: string, scope: string, st: Storage, req: Request, net: NetOutcome)
    requires UniqueNames(st) && StartsWith(req.url.pathname, "/")
    ensures !IsStatic(TemplateWorker(origin, scope), req.url.pathname)
    ensures Fetch(TemplateWorker(origin, scope), st, req, net) == NetworkFirst(TemplateWorker(origin, scope), st, req, net)
    ensures Fetch(TemplateWorker(origin, scope), st, req, net).usedNetwork
    ensures Fetch(TemplateWorker(origin, scope), st, req, net).storage == st
  {
    var p := req.url.pathname;
    assert p[0] == '/';
    forall a | a in TemplateAssets ensures p != a {
      assert a[0] == '.';
    }
  }

  /** The pathnames the asset references stand for once resolved. */
  function ResolvedAssetPaths(cfg: WorkerConfig): (paths: seq<string>)
    ensures |paths| == |cfg.assets|
    ensures forall i :: 0 <= i < |paths| ==> paths[i] == Resolve(cfg, cfg.assets[i]).pathname
  {
    seq(|cfg.assets|, i requires 0 <= i < |cfg.assets| => ResolvePath(cfg.scope, cfg.assets[i]))
  }

  /** The static test the worker evidently intends: compare the pathname with
      the resolved references, the way `cache.addAll` and `caches.match`
      resolve them. */
  predicate IsStaticResolved(cfg: WorkerConfig, pathname: string) {
    pathname in ResolvedAssetPaths(cfg) || StartsWith(pathname, ResolvePath(cfg.scope, cfg.iconPrefix))
  }

  /** The fetch handler with the resolved static test. */
  function FetchResolved(cfg: WorkerConfig, st: Storage, req: Request, net: NetOutcome): (r: FetchResult)
    requires UniqueNames(st)
    ensures UniqueNames(r.storage)
    ensures !IsStaticResolved(cfg, req.url.pathname) ==> r.storage == st && r.usedNetwork
    ensures IsStaticResolved(cfg, req.url.pathname) && MatchRequest(st, req).Some? ==>
              r.response == MatchRequest(st, req) && r.storage == st && !r.usedNetwork
  {
    var path := req.url.pathname;
    var iconPrefix := ResolvePath(cfg.scope, cfg.iconPrefix);
    if IsStaticResolved(cfg, path) then CacheFirst(cfg, st, req, net, StartsWith(path, iconPrefix))
    else NetworkFirst(cfg, st, req, net)
  }

  /** For the shipped worker, whose references are root-relative, resolving
      changes nothing: the resolved test and the written one agree, and so do
      the two fetch handlers. */
  lemma BuiltResolvedAgrees(origin: string, scope: string, st: Storage, req: Request, net: NetOutcome)
    requires UniqueNames(st)
    ensures IsStatic(BuiltWorker(origin, scope), req.url.pathname) <==>
            IsStaticResolved(BuiltWorker(origin, scope), req.url.pathname)
    ensures Fetch(BuiltWorker(origin, scope), st, req, net) == FetchResolved(BuiltWorker(origin, scope), st, req, net)
  {
    var cfg := BuiltWorker(origin, scope);
    assert ResolvedAssetPaths(cfg) == BuiltAssets by {
      forall i | 0 <= i < 4 ensures ResolvedAssetPaths(cfg)[i] == BuiltAssets[i] {
        assert BuiltAssets[i][..1] == "/";
      }
    }
    assert ResolvePath(scope, "/icons/") == "/icons/";
  }

  // ------------------------------------------------------- offline backstop

  /** The cache `CACHE_NAME` holds both fallback entries. */
  predicate Primed(cfg: WorkerConfig, st: Storage) {
    && Lookup(st, CacheName(cfg)).Some?
    && Resolve(cfg, cfg.shellFallback) in Lookup(st, CacheName(cfg)).value
    && Resolve(cfg, cfg.iconFallback) in Lookup(st, CacheName(cfg)).value
  }

  /** Both fallbacks are among the assets install stores. */
  predicate FallbacksListed(cfg: WorkerConfig) {
    cfg.shellFallback in cfg.assets && cfg.iconFallback in cfg.assets
  }

  lemma FallbacksListedInBoth(origin: string, scope: string)
    ensures FallbacksListed(BuiltWorker(origin, scope))
    ensures FallbacksListed(TemplateWorker(origin, scope))
  {
    assert BuiltAssets[1] == "/index.html" && BuiltAssets[3] == "/icons/icon-512x512.png";
    assert TemplateAssets[1] == "./index.html" && TemplateAssets[3] == "./icons/icon-512x512.png";
  }

  /** A successful install leaves both fallbacks cached. */
  lemma InstallPrimes(cfg: WorkerConfig, st: Storage, net: Url -> NetOutcome)
    requires UniqueNames(st) && FallbacksListed(cfg)
    requires AllDelivered(cfg, net)
    ensures Primed(cfg, Install(cfg, st, net).storage)
  {
    var i :| 0 <= i < |cfg.assets| && cfg.assets[i] == cfg.shellFallback;
    var j :| 0 <= j < |cfg.assets| && cfg.assets[j] == cfg.iconFallback;
  }

  /** Both shipped workers list their fallbacks among their assets, so a
      successful install of either leaves the page and the icon cached. */
  lemma ShippedWorkersPrime(origin: string, scope: string, st: Storage, net: Url -> NetOutcome)
    requires UniqueNames(st)
    ensures var built := BuiltWorker(origin, scope);
            AllDelivered(built, net) ==> Primed(built, Install(built, st, net).storage)
    ensures var template := TemplateWorker(origin, scope);
            AllDelivered(template, net) ==> Primed(template, Install(template, st, net).storage)
  {
    FallbacksListedInBoth(origin, scope);
    if AllDelivered(BuiltWorker(origin, scope), net) {
      InstallPrimes(BuiltWorker(origin, scope), st, net);
    }
    if AllDelivered(TemplateWorker(origin, scope), net) {
      InstallPrimes(TemplateWorker(origin, scope), st, net);
    }
  }

  /** Activation never deletes the current cache, so the fallbacks survive. */
  lemma ActivateKeepsPrimed(cfg: WorkerConfig, st: Storage)
    requires Primed(cfg, st)
    ensures Primed(cfg, Activate(cfg, st))
  {
  }

  /** Both strategies keep the fallbacks cached and, with them cached, always
      answer the page with some response. */
  lemma StrategiesKeepPrimed(cfg: WorkerConfig, st: Storage, req: Request, net: NetOutcome, iconRequest: bool)
    requires UniqueNames(st) && Primed(cfg, st)
    ensures CacheFirst(cfg, st, req, net, iconRequest).response.Some?
    ensures Primed(cfg, CacheFirst(cfg, st, req, net, iconRequest).storage)
    ensures NetworkFirst(cfg, st, req, net).response.Some?
  {
    var name := CacheName(cfg);
    MatchFindsCached(st, name, Resolve(cfg, cfg.shellFallback));
    MatchFindsCached(st, name, Resolve(cfg, cfg.iconFallback));
    var r := CacheFirst(cfg, st, req, net, iconRequest);
    if MatchRequest(st, req).None? && net.Reached? && net.resp.Ok() {
      if req.verb == "GET" && net.resp.Storable() {
        assert Lookup(r.storage, name) == Some(Lookup(st, name).value[req.url := net.resp]);
      } else {
        assert r.storage == Open(st, name);
      }
    }
  }

  /** Once installed, the page always gets an answer: with the fallbacks
      cached, every fetch responds with something, whatever the network does,
      and the fallbacks stay cached. */
  lemma FetchNeverLeavesPageEmpty(cfg: WorkerConfig, st: Storage, req: Request, net: NetOutcome)
    requires UniqueNames(st) && Primed(cfg, st)
    ensures Fetch(cfg, st, req, net).response.Some?
    ensures Primed(cfg, Fetch(cfg, st, req, net).storage)
    ensures FetchResolved(cfg, st, req, net).response.Some?
    ensures Primed(cfg, FetchResolved(cfg, st, req, net).storage)
  {
    StrategiesKeepPrimed(cfg, st, req, net, StartsWith(req.url.pathname, cfg.iconPrefix));
  }

  /** Cache first learns: after a miss answered by a storable response, the
      same request is served from the cache without the network. */
  lemma CacheFirstLearns(cfg: WorkerConfig, st: Storage, req: Request, resp: Response, later: NetOutcome)
    requires UniqueNames(st) && IsStatic(cfg, req.url.pathname) && req.verb == "GET"
    requires MatchRequest(st, req).None? && resp.Storable()
    ensures var st' := Fetch(cfg, st, req, Reached(resp)).storage;
            Fetch(cfg, st', req, later) == FetchResult(Some(resp), st', false)
  {
    MatchAfterPut(st, CacheName(cfg), req.url, resp);
  }

  /** With a single cache left, `caches.match` is a lookup in it. */
  lemma MatchInSoleCache(st: Storage, name: string, key: Url)
    requires UniqueNames(st) && |st| <= 1 && Lookup(st, name).Some?
    ensures Match(st, key) == (if key in Lookup(st, name).value then Some(Lookup(st, name).value[key]) else None)
  {
    assert st[0].name == name;
  }

  /** After install and activate, a GET for an installed asset is answered
      from the cache with what install stored, with no network request,
      whenever the fetch handler classifies its pathname static. */
  lemma InstalledAssetFromCache(cfg: WorkerConfig, st: Storage, net: Url -> NetOutcome, i: int, later: NetOutcome)
    requires UniqueNames(st) && 0 <= i < |cfg.assets| && AllDelivered(cfg, net)
    ensures var st' := Activate(cfg, Install(cfg, st, net).storage);
            var u := Resolve(cfg, cfg.assets[i]);
            var req := Request("GET", u);
            && MatchRequest(st', req) == Some(net(u).resp)
            && (IsStatic(cfg, u.pathname) ==> Fetch(cfg, st', req, later) == FetchResult(Some(net(u).resp), st', false))
            && (IsStaticResolved(cfg, u.pathname) ==>
                  FetchResolved(cfg, st', req, later) == FetchResult(Some(net(u).resp), st', false))
  {
    var st' := Activate(cfg, Install(cfg, st, net).storage);
    MatchInSoleCache(st', CacheName(cfg), Resolve(cfg, cfg.assets[i]));
  }

  /** The shipped worker serves every installed asset from the cache. */
  lemma BuiltServesInstalledAssets(origin: string, scope: string, st: Storage, net: Url -> NetOutcome,
                                   i: int, later: NetOutcome)
    requires UniqueNames(st) && 0 <= i < 4 && AllDelivered(BuiltWorker(origin, scope), net)
    ensures var cfg := BuiltWorker(origin, scope);
            var st' := Activate(cfg, Install(cfg, st, net).storage);
            var u := Resolve(cfg, cfg.assets[i]);
            Fetch(cfg, st', Request("GET", u), later) == FetchResult(Some(net(u).resp), st', false)
  {
    var cfg := BuiltWorker(origin, scope);
    BuiltAssetsRooted();
    var u := Resolve(cfg, cfg.assets[i]);
    assert u.pathname == cfg.assets[i];
    assert IsStatic(cfg, u.pathname);
    InstalledAssetFromCache(cfg, st, net, i, later);
  }

  lemma BuiltAssetsRooted()
    ensures forall i :: 0 <= i < |BuiltAssets| ==> StartsWith(BuiltAssets[i], "/")
  {
    assert StartsWith(BuiltAssets[0], "/");
    assert StartsWith(BuiltAssets[1], "/");
    assert StartsWith(BuiltAssets[2], "/");
    assert StartsWith(BuiltAssets[3], "/");
  }

  /** With the resolved static test, the generated worker too serves every
      installed asset from the cache. */
  lemma ResolvedTemplateServesInstalledAssets(origin: string, scope: string, st: Storage, net: Url -> NetOutcome,
                                              i: int, later: NetOutcome)
    requires UniqueNames(st) && 0 <= i < 4 && AllDelivered(TemplateWorker(origin, scope), net)
    ensures var cfg := TemplateWorker(origin, scope);
            var st' := Activate(cfg, Install(cfg, st, net).storage);
            var u := Resolve(cfg, cfg.assets[i]);
            FetchResolved(cfg, st', Request("GET", u), later) == FetchResult(Some(net(u).resp), st', false)
  {
    var cfg := TemplateWorker(origin, scope);
    assert ResolvedAssetPaths(cfg)[i] == Resolve(cfg, cfg.assets[i]).pathname;
    InstalledAssetFromCache(cfg, st, net, i, later);
  }
}

=== FILE: strings.dfy ===
/** The JavaScript string operations the wrapper generator relies on
    (`startsWith`, `endsWith`, `includes`, `indexOf`, `lastIndexOf`,
    `split(c)[1]`, `trim`, `toLowerCase`, `replace` with a string pattern),
    stated over `seq<char>`. */
module Strings {
  import opened Options

  /** Membership in the class matched by `\s` and removed by `trim()`: the
      ECMAScript WhiteSpace and LineTerminator code points. */
  predicate IsWhitespace(c: char) {
    || c == ' ' || c == '\t' || c == '\n' || c == '\r' || c == '\U{B}' || c == '\U{C}'
    || c == '\U{A0}' || c == '\U{1680}' || ('\U{2000}' <= c <= '\U{200A}')
    || c == '\U{2028}' || c == '\U{2029}' || c == '\U{202F}' || c == '\U{205F}'
    || c == '\U{3000}' || c == '\U{FEFF}'
  }

  predicate AllWhitespace(s: string) {
    forall i :: 0 <= i < |s| ==> IsWhitespace(s[i])
  }

  predicate NoWhitespace(s: string) {
    forall i :: 0 <= i < |s| ==> !IsWhitespace(s[i])
  }

  predicate StartsWith(s: string, prefix: string) {
    |prefix| <= |s| && s[..|prefix|] == prefix
  }

  predicate EndsWith(s: string, suffix: string) {
    |suffix| <= |s| && s[|s| - |suffix|..] == suffix
  }

  /** `pattern` occurs in `s` starting at index `k`. */
  predicate OccursAt(s: string, pattern: string, k: int) {
    0 <= k && k + |pattern| <= |s| && s[k..k + |pattern|] == pattern
  }

  /** `s.includes(pattern)`. */
  predicate Contains(s: string, pattern: string) {
    exists k | 0 <= k <= |s| - |pattern| :: OccursAt(s, pattern, k)
  }

  /** `s.indexOf(pattern, from)`: the first occurrence at or after `from`, or -1. */
  function IndexOfFrom(s: string, pattern: string, from: nat): (k: int)
    ensures -1 <= k
    ensures k >= 0 ==> from <= k && OccursAt(s, pattern, k)
    ensures k >= 0 ==> forall j :: from <= j < k ==> !OccursAt(s, pattern, j)
    ensures k == -1 ==> forall j :: from <= j ==> !OccursAt(s, pattern, j)
    decreases |s| - from
  {
    if from + |pattern| > |s| then -1
    else if s[from..from + |pattern|] == pattern then from
    else IndexOfFrom(s, pattern, from + 1)
  }

  /** `s.indexOf(pattern)`. */
  function IndexOf(s: string, pattern: string): (k: int)
    ensures k == -1 <==> !Contains(s, pattern)
    ensures k >= 0 ==> OccursAt(s, pattern, k) && forall j :: 0 <= j < k ==> !OccursAt(s, pattern, j)
  {
    IndexOfFrom(s, pattern, 0)
  }

  /** `s.lastIndexOf(c)` for a one-character pattern. */
  function LastIndexOfChar(s: string, c: char): (k: int)
    ensures -1 <= k < |s|
    ensures k >= 0 ==> s[k] == c
    ensures forall j :: k < j < |s| ==> s[j] != c
  {
    if |s| == 0 then -1
    else if s[|s| - 1] == c then |s| - 1
    else LastIndexOfChar(s[..|s| - 1], c)
  }

  /** The longest prefix of `s` that does not contain `c`. */
  function TakeUntil(s: string, c: char): (r: string)
    ensures StartsWith(s, r)
    ensures c !in r
    ensures |r| == |s| || s[|r|] == c
  {
    if |s| == 0 || s[0] == c then [] else [s[0]] + TakeUntil(s[1..], c)
  }

  /** `s.split(c)[1]`: the field between the first and the second `c`, or
      `undefined` (None) when `s` holds no `c` at all. */
  function SecondField(s: string, c: char): (r: Option<string>)
    ensures r.None? <==> c !in s
    ensures r.Some? ==>
              var k := IndexOf(s, [c]);
              0 <= k < |s| && c !in s[..k]
              && StartsWith(s[k + 1..], r.value) && c !in r.value
              && (k + 1 + |r.value| == |s| || s[k + 1 + |r.value|] == c)
  {
    var k := IndexOf(s, [c]);
    if k < 0 then
      assert forall j :: 0 <= j < |s| ==> s[j] != c by {
        forall j | 0 <= j < |s| ensures s[j] != c {
          assert !OccursAt(s, [c], j);
        }
      }
      None
    else
      assert s[k..k + 1] == [c];
      assert s[k] == c;
      assert c !in s[..k] by {
        forall j | 0 <= j < k ensures s[j] != c {
          assert !OccursAt(s, [c], j);
          assert s[j..j + 1] == [s[j]];
        }
      }
      Some(TakeUntil(s[k + 1..], c))
  }

  /** `s.trimStart()`. */
  function TrimStart(s: string): (r: string)
    ensures |r| <= |s| && r == s[|s| - |r|..]
    ensures AllWhitespace(s[..|s| - |r|])
    ensures r == [] || !IsWhitespace(r[0])
  {
    if |s| > 0 && IsWhitespace(s[0]) then
      var r := TrimStart(s[1..]);
      var k := |s| - |r|;
      forall i | 0 <= i < k ensures IsWhitespace(s[..k][i]) {
        if i > 0 {
          assert s[..k][i] == s[1..][..k - 1][i - 1];
        }
      }
      assert s[k..] == s[1..][k - 1..];
      r
    else s
  }

  /** `s.trimEnd()`. */
  function TrimEnd(s: string): (r: string)
    ensures |r| <= |s| && r == s[..|r|]
    ensures AllWhitespace(s[|r|..])
    ensures r == [] || !IsWhitespace(r[|r| - 1])
  {
    if |s| > 0 && IsWhitespace(s[|s| - 1]) then
      var r := TrimEnd(s[..|s| - 1]);
      assert s[|r|..] == s[..|s| - 1][|r|..] + [s[|s| - 1]];
      assert s[..|r|] == s[..|s| - 1][..|r|];
      r
    else s
  }

  /** `s.trim()`: empty exactly when `s` is all whitespace; otherwise it
      neither starts nor ends with whitespace. */
  function Trim(s: string): (r: string)
    ensures r == [] <==> AllWhitespace(s)
    ensures r == [] || (!IsWhitespace(r[0]) && !IsWhitespace(r[|r| - 1]))
    ensures |r| <= |s|
  {
    var t := TrimStart(s);
    var r := TrimEnd(t);
    if r == [] then
      assert s == s[..|s| - |t|] + t;
      assert t == t[..0] + t[0..];
      r
    else
      assert r[0] == t[0];
      r
  }

  /** Trimming removes exactly the surrounding whitespace: the characterisation
      of `trim()` from the outside in. */
  lemma {:induction false} TrimSurrounded(lead: string, core: string, trail: string)
    requires AllWhitespace(lead) && AllWhitespace(trail)
    requires core != [] && !IsWhitespace(core[0]) && !IsWhitespace(core[|core| - 1])
    ensures Trim(lead + core + trail) == core
  {
    TrimStartSkips(lead, core + trail);
    assert lead + core + trail == lead + (core + trail);
    TrimEndSkips(core, trail);
  }

  lemma {:induction false} TrimStartSkips(lead: string, rest: string)
    requires AllWhitespace(lead)
    requires rest != [] && !IsWhitespace(rest[0])
    ensures TrimStart(lead + rest) == rest
    decreases |lead|
  {
    if lead == [] {
      assert lead + rest == rest;
    } else {
      assert (lead + rest)[1..] == lead[1..] + rest;
      TrimStartSkips(lead[1..], rest);
    }
  }

  lemma {:induction false} TrimEndSkips(rest: string, trail: string)
    requires AllWhitespace(trail)
    requires rest != [] && !IsWhitespace(rest[|rest| - 1])
    ensures TrimEnd(rest + trail) == rest
    decreases |trail|
  {
    if trail == [] {
      assert rest + trail == rest;
    } else {
      var n := |rest + trail|;
      assert (rest + trail)[..n - 1] == rest + trail[..|trail| - 1];
      TrimEndSkips(rest, trail[..|trail| - 1]);
    }
  }

  /** `toLowerCase()` on one character; only the ASCII letters are mapped. */
  function LowerChar(c: char): char {
    if 'A' <= c <= 'Z' then (c as int + 32) as char else c
  }

  /** `s.toLowerCase()`, character by character. */
  function ToLower(s: string): (r: string)
    ensures |r| == |s|
    ensures forall i :: 0 <= i < |s| ==> r[i] == LowerChar(s[i])
  {
    seq(|s|, i requires 0 <= i < |s| => LowerChar(s[i]))
  }

  lemma ToLowerIdempotent(s: string)
    ensures ToLower(ToLower(s)) == ToLower(s)
  {
  }

  lemma ToLowerConcat(a: string, b: string)
    ensures ToLower(a + b) == ToLower(a) + ToLower(b)
  {
  }

  /** `s.replace(pattern, replacement)` with a string pattern: only the first
      occurrence is replaced, wherever it is. */
  function ReplaceFirst(s: string, pattern: string, replacement: string): (r: string)
    ensures !Contains(s, pattern) ==> r == s
    ensures Contains(s, pattern) ==>
              var k := IndexOf(s, pattern);
              0 <= k && k + |pattern| <= |s| && r == s[..k] + replacement + s[k + |pattern|..]
  {
    var k := IndexOf(s, pattern);
    if k < 0 then s else s[..k] + replacement + s[k + |pattern|..]
  }

  lemma EndsWithImpliesContains(s: string, suffix: string)
    requires EndsWith(s, suffix)
    ensures Contains(s, suffix)
  {
    assert OccursAt(s, suffix, |s| - |suffix|);
  }
}

=== FILE: title_endpoint.dfy ===
/** The title-and-icon lookup endpoint of server.js (`GET /get-title`): it
    fetches the page at `url`, picks a title through a chain of fallbacks and
    lists candidate icons, the built-in default first. The page arrives here
    already parsed, as its elements in document order; the fetch, URL parsing
    and URL resolution are parameters. */
module TitleEndpoint {
  import opened Options
  import opened Strings
  import opened Distinct

  /** One element of the parsed page: its tag, its attributes and its text. */
  datatype Element = Element(tag: string, attrs: map<string, string>, text: string)

  type Document = seq<Element>

  /** What fetching the page gave: the parsed page, or any failure (network
      error, timeout, an error status). */
  datatype PageFetch = Fetched(doc: Document) | FetchFailed

  datatype TitleResponse =
    | MissingUrl
    | TitleAndIcons(title: string, icons: seq<string>)

  function Status(r: TitleResponse): int {
    if r.MissingUrl? then 400 else 200
  }

  const DefaultTitle := "PWA App"

  const DefaultIcon := "https://images.3354797.com/wsd-images-prod/winbdtf2/merchant_resource/appdownloadicon/app_download_icon_winbdtf2_20251022164200.png"

  // -------------------------------------------------------------------- title

  /** `$(tag).text()`: the text of every element with that tag, joined in
      document order. */
  function AllText(doc: Document, tag: string): (r: string)
    ensures (forall i :: 0 <= i < |doc| ==> doc[i].tag != tag) ==> r == []
    ensures |doc| == 1 ==> r == (if doc[0].tag == tag then doc[0].text else [])
  {
    if |doc| == 0 then []
    else (if doc[0].tag == tag then doc[0].text else []) + AllText(doc[1..], tag)
  }

  lemma {:induction false} AllTextConcat(a: Document, b: Document, tag: string)
    ensures AllText(a + b, tag) == AllText(a, tag) + AllText(b, tag)
  {
    if |a| == 0 {
      assert a + b == b;
    } else {
      assert (a + b)[0] == a[0];
      assert (a + b)[1..] == a[1..] + b;
      AllTextConcat(a[1..], b, tag);
    }
  }

  /** `$('title').text().trim()`. */
  function TitleText(doc: Document): string {
    Trim(AllText(doc, "title"))
  }

  /** The element matches the selector `tag[key="value"]`. */
  predicate Selects(e: Element, tag: string, key: string, value: string) {
    e.tag == tag && key in e.attrs && e.attrs[key] == value
  }

  /** `$('tag[key="value"]').attr(attr) || ''`: the attribute of the FIRST
      matching element only, empty when there is no match or that element
      lacks the attribute. */
  function FirstAttr(doc: Document, tag: string, key: string, value: string, attr: string): (r: string)
    ensures (forall i :: 0 <= i < |doc| ==> !Selects(doc[i], tag, key, value)) ==> r == []
    ensures r != [] ==>
              exists i :: 0 <= i < |doc| && Selects(doc[i], tag, key, value)
                && (forall j :: 0 <= j < i ==> !Selects(doc[j], tag, key, value))
                && attr in doc[i].attrs && doc[i].attrs[attr] == r
    ensures forall i ::
              (0 <= i < |doc| && Selects(doc[i], tag, key, value)
               && (forall j :: 0 <= j < i ==> !Selects(doc[j], tag, key, value))) ==>
              r == (if attr in doc[i].attrs then doc[i].attrs[attr] else [])
  {
    if |doc| == 0 then []
    else if Selects(doc[0], tag, key, value) then
      if attr in doc[0].attrs then doc[0].attrs[attr] else []
    else
      var r := FirstAttr(doc[1..], tag, key, value, attr);
      assert forall j :: 1 <= j < |doc| ==> doc[j] == doc[1..][j - 1];
      r
  }

  function MetaTitle(doc: Document): string {
    FirstAttr(doc, "meta", "name", "title", "content")
  }

  function OgTitle(doc: Document): string {
    FirstAttr(doc, "meta", "property", "og:title", "content")
  }

  /** `new URL(url).hostname.replace('www.', '')`, or empty when the URL does
      not parse. The first `www.` is removed wherever it is in the host. */
  function HostTitle(host: Option<string>): (r: string)
    ensures host.None? ==> r == []
    ensures host.Some? && !Contains(host.value, "www.") ==> r == host.value
    ensures host.Some? && Contains(host.value, "www.") ==>
              var k := IndexOf(host.value, "www.");
              0 <= k && k + 4 <= |host.value| && r == host.value[..k] + host.value[k + 4..]
  {
    if host.Some? then ReplaceFirst(host.value, "www.", "") else []
  }

  /** The title the endpoint settles on. */
  function PageTitle(doc: Document, host: Option<string>): (t: string)
    ensures t != []
  {
    TitleChain(TitleText(doc), MetaTitle(doc), OgTitle(doc), HostTitle(host))
  }

  /** The fallbacks step by step as server.js decides them: the `<title>`
      text; if empty, the meta title or else the `og:title`; if still empty,
      the host; if still empty, the default. */
  function TitleChain(fromTitle: string, meta: string, og: string, hostTitle: string): (t: string)
    ensures t != []
  {
    var fromMeta := if fromTitle != [] then fromTitle else if meta != [] then meta else og;
    var finalTitle := if fromMeta != [] then fromMeta else hostTitle;
    if finalTitle != [] then finalTitle else DefaultTitle
  }

  /** The first non-empty candidate, or `fallback` when all are empty. */
  function FirstNonEmpty(candidates: seq<string>, fallback: string): (r: string)
    ensures (forall i :: 0 <= i < |candidates| ==> candidates[i] == []) ==> r == fallback
    ensures (exists i :: 0 <= i < |candidates| && candidates[i] != []) ==>
              exists i :: 0 <= i < |candidates| && candidates[i] == r && r != []
                && forall j :: 0 <= j < i ==> candidates[j] == []
  {
    if |candidates| == 0 then fallback
    else if candidates[0] != [] then candidates[0]
    else
      var r := FirstNonEmpty(candidates[1..], fallback);
      assert forall j :: 1 <= j < |candidates| ==> candidates[j] == candidates[1..][j - 1];
      r
  }

  /** The title is the first non-empty one of: the trimmed `<title>` text,
      `meta[name=title]`, `og:title`, the host without its first `www.`;
      `PWA App` when all four are empty. */
  lemma PageTitleIsFirstNonEmpty(doc: Document, host: Option<string>)
    ensures PageTitle(doc, host) ==
            FirstNonEmpty([TitleText(doc), MetaTitle(doc), OgTitle(doc), HostTitle(host)], DefaultTitle)
  {
    TitleChainIsFirstNonEmpty(TitleText(doc), MetaTitle(doc), OgTitle(doc), HostTitle(host));
  }

  lemma TitleChainIsFirstNonEmpty(t: string, m: string, o: string, h: string)
    ensures TitleChain(t, m, o, h) == FirstNonEmpty([t, m, o, h], DefaultTitle)
  {
    var d := DefaultTitle;
    FirstNonEmptyCons(h, [], d);
    assert [h] + [] == [h];
    FirstNonEmptyCons(o, [h], d);
    assert [o] + [h] == [o, h];
    FirstNonEmptyCons(m, [o, h], d);
    assert [m] + [o, h] == [m, o, h];
    FirstNonEmptyCons(t, [m, o, h], d);
    assert [t] + [m, o, h] == [t, m, o, h];
  }

  lemma FirstNonEmptyCons(x: string, rest: seq<string>, fallback: string)
    ensures FirstNonEmpty([x] + rest, fallback) == if x != [] then x else FirstNonEmpty(rest, fallback)
  {
    assert ([x] + rest)[1..] == rest;
  }

  /** A page with a non-blank `<title>` is named by it, whatever else it has. */
  lemma TitleTagWins(doc: Document, host: Option<string>)
    requires !AllWhitespace(AllText(doc, "title"))
    ensures PageTitle(doc, host) == Trim(AllText(doc, "title"))
  {
  }

  // -------------------------------------------------------------------- icons

  /** The `<img>` elements the endpoint takes as icons: a non-empty `src`, and
      a `class` attribute that contains `icon`. */
  predicate IsIconImage(e: Element) {
    && e.tag == "img"
    && "src" in e.attrs && e.attrs["src"] != []
    && "class" in e.attrs && Contains(e.attrs["class"], "icon")
  }

  /** The resolved `src` of every icon image, in document order; an image
      whose `src` does not resolve against the page URL is skipped. */
  function CollectIcons(doc: Document, resolve: string -> Option<string>): (r: seq<string>)
    ensures |r| <= |doc|
  {
    if |doc| == 0 then [] else IconOf(doc[0], resolve) + CollectIcons(doc[1..], resolve)
  }

  /** What one element contributes. */
  function IconOf(e: Element, resolve: string -> Option<string>): seq<string> {
    if IsIconImage(e) && resolve(e.attrs["src"]).Some? then [resolve(e.attrs["src"]).value] else []
  }

  /** An icon is listed exactly when some icon image's `src` resolves to it. */
  lemma {:induction false} CollectIconsMembers(doc: Document, resolve: string -> Option<string>, x: string)
    ensures x in CollectIcons(doc, resolve) <==>
              exists i :: 0 <= i < |doc| && IsIconImage(doc[i]) && resolve(doc[i].attrs["src"]) == Some(x)
  {
    if |doc| > 0 {
      CollectIconsMembers(doc[1..], resolve, x);
      assert forall j :: 1 <= j < |doc| ==> doc[j] == doc[1..][j - 1];
      if x in CollectIcons(doc[1..], resolve) {
        var i :| 0 <= i < |doc[1..]| && IsIconImage(doc[1..][i]) && resolve(doc[1..][i].attrs["src"]) == Some(x);
        assert doc[i + 1] == doc[1..][i];
      }
    }
  }

  /** Collection is a scan in document order: a page split in two collects
      the first part's icons, then the second's. */
  lemma {:induction false} CollectIconsConcat(a: Document, b: Document, resolve: string -> Option<string>)
    ensures CollectIcons(a + b, resolve) == CollectIcons(a, resolve) + CollectIcons(b, resolve)
  {
    if |a| == 0 {
      assert a + b == b;
    } else {
      assert (a + b)[0] == a[0];
      assert (a + b)[1..] == a[1..] + b;
      CollectIconsConcat(a[1..], b, resolve);
    }
  }

  /** Only icon images contribute: other elements add nothing. */
  lemma OtherElementsIgnored(e: Element, resolve: string -> Option<string>)
    requires !IsIconImage(e)
    ensures CollectIcons([e], resolve) == []
  {
  }

  // ----------------------------------------------------------------- endpoint

  /** `GET /get-title?url=...`. `query` is the `url` parameter, `fetch` what
      fetching it gives, `host` the hostname `new URL(url)` parses out of it,
      `resolve` what `new URL(src, url).href` gives. */
  function GetTitle(query: Option<string>, fetch: PageFetch, host: Option<string>,
                    resolve: string -> Option<string>): (r: TitleResponse)
    ensures r.MissingUrl? <==> query.None? || query.value == []
    ensures Status(r) == 400 <==> query.None? || query.value == []
    ensures r.TitleAndIcons? ==> r.title != [] && NoDuplicates(r.icons) && |r.icons| > 0 && r.icons[0] == DefaultIcon
    ensures r.TitleAndIcons? && fetch.FetchFailed? ==> r.title == DefaultTitle && r.icons == [DefaultIcon]
    ensures r.TitleAndIcons? && fetch.Fetched? ==>
              && r.title == PageTitle(fetch.doc, host)
              && forall x :: x in r.icons <==> x == DefaultIcon || x in CollectIcons(fetch.doc, resolve)
  {
    if query.None? || query.value == [] then MissingUrl
    else
      var icons := [DefaultIcon];
      match fetch
      case FetchFailed =>
        TitleAndIcons(DefaultTitle, Unique(icons))
      case Fetched(doc) =>
        TitleAndIcons(PageTitle(doc, host), Unique(icons + CollectIcons(doc, resolve)))
  }

  /** The icon list keeps the order in which icons were found: of two icons
      listed, the earlier one was found first (the default counting as found
      before everything on the page). */
  lemma IconsInDiscoveryOrder(query: Option<string>, doc: Document, host: Option<string>,
                              resolve: string -> Option<string>)
    requires query.Some? && query.value != []
    ensures var found := [DefaultIcon] + CollectIcons(doc, resolve);
            var icons := GetTitle(query, Fetched(doc), host, resolve).icons;
            forall i, j :: 0 <= i < j < |icons| ==> FirstIndex(found, icons[i]) < FirstIndex(found, icons[j])
  {
  }
}
